=== FILE: README.md ===
# azure-blob-client, modelled in Dafny

azure-blob-client is a thin convenience layer over an Azure Blob Storage
container. It offers path-oriented `list`, `get`, `save` and `remove`
operations, and it stores typed content as data URLs
(`data:<type>;<encoding>,<payload>`). The package ships two versions:

- **src/index.ts**: the `BlobStorageClient` class. It checks its
  configuration in the constructor, throws on a data URL whose header
  has no `;`, wraps objects in a `data:application/json;utf-8,`
  envelope on `save`, turns JSON payloads back into values on `get`, and
  honours `excludeBlobNames` on `remove`.
- **src/index.js**: the legacy module of free functions. Each function
  resolves its own configuration from its options or the environment. Its
  parser returns nothing rather than throwing, `get` returns one object or
  an array, and `remove` returns every listed path.

The container is replaced by `Store.Container`. It is a class holding a map
from key to blob (text plus metadata) and the keys in lexicographic order.
It offers the five calls the clients make: exists, flat listing by prefix,
download, upload and delete-if-exists. Two parameters stand in for outcomes
the service decides:

- `unreadable`: the keys whose download has no body;
- `refused`: the keys whose delete-if-exists does not succeed.

Errors thrown by the clients are `Err` values. Environment variables are
explicit parameters.

Modules:

- `Results`: `Option`, `Result`.
- `Strings`: the JavaScript string operations the clients use (`startsWith`,
  `indexOf`, `lastIndexOf`, `split`, `join`, `||` on strings).
- `Paths`: the reserved characters; node's `basename` and `extname`; the
  legacy name and extension expressions.
- `DataUrls`: the data-URL record and how it is written.
- `Store`: the container stand-in.
- `Client`: src/index.ts.
- `LegacyClient`: src/index.js.
- `Compatibility`: how the two parsers relate.

Three behaviours of the code are worth noting:

- When `get` finds neither a blob nor anything under the prefix, the class
  returns an empty array rather than failing with not-found
  (`Client.BlobStorageClient.Get`, third ensures).
- The class's `get` throws on the first blob whose text starts with
  `data:`, has a comma, and has no `;` before that comma. It is not
  skipped like a blob without a body.
- The legacy `getContainerName` throws the connection-string error. Both
  getters therefore yield `NoConnectionString`.

## Model

| member | source | states |
|---|---|---|
| Strings.Fallback | src/index.ts:24 | `a \|\| b` on strings: the first unless it is empty, then the second; empty only when both are |
| Strings.Split | src/index.js:54 | `split` on one character yields at least one piece, and exactly one iff the separator is absent |
| Strings.SplitPiecesFree | src/index.js:56 | no piece of a split contains the separator |
| Strings.SplitJoin | src/index.js:54 | joining the pieces of a split with the same separator gives back the text |
| Strings.TwoParts | src/index.js:55-57 | a text that splits into two pieces is those pieces around one separator |
| Strings.AfterLast | src/index.js:130 | the text after the last separator: the longest separator-free suffix, preceded by the separator when shorter than the text |
| Paths.UnallowedPathCharacters | src/index.ts:21 | the reserved characters `\ : * ? " < > \|`, in this order; src/index.js:11 lists the same |
| Paths.HasUnallowedCharacter | src/index.ts:151 | the class's `some` check fails exactly when some character of the path is reserved |
| Paths.FirstContained | src/index.js:222-224 | the first reserved character (in list order) that the path contains, or none iff it contains none |
| Paths.FirstUnallowedCharacter | src/index.js:222-224 | the legacy check fails iff the path holds a reserved character; the character named is the first of the list that occurs |
| Paths.TrimTrailingSlashes | src/index.ts:60 | a prefix of the key that does not end in '/', and only '/' was dropped |
| Paths.Basename | src/index.ts:101 | node's POSIX `basename`: the text after the last '/' once trailing '/' are dropped (so "b" for "a/b/"); it has no '/' and is never longer than the key |
| Paths.LastPiece | src/index.js:177 | `split('/').pop()` holds no '/', and is the whole key when the key has none |
| Paths.LastPieceIsAfterLast | src/index.js:177 | `split('/').pop()` equals the text after the last '/' |
| Paths.BasenameIsLastPiece | src/index.js:177 | the class and the legacy `get` name a key the same way unless it ends in '/' |
| Paths.Extname | src/index.ts:66 | node's POSIX `extname` of a name without '/': non-empty iff the name has a '.' that is not its first character and the name is not ".."; then '.' followed by the text after the last '.' |
| Paths.ClassExtension | src/index.ts:65-67 | `extname(name).replace(".", "")`: the text after the last '.', or "" when that '.' is the first character |
| Paths.LegacyExtension | src/index.js:182 | `substring(lastIndexOf('.') + 1)`: the text after the last '.' |
| Paths.ExtensionsAgree | src/index.js:182 | the two extension rules agree iff the last '.' is not the name's first character (or the name is ".") |
| Store.Container.Exists | src/index.ts:44 | the probe is true exactly for a stored key, which then appears in its own prefix listing |
| Store.Container.Download | src/index.ts:51-57 | the text downloaded is the stored blob's content |
| Store.Container.ListFlat | src/index.ts:100 | the flat listing is sorted and holds exactly the keys that start with the prefix |
| Store.Container.Upload | src/index.ts:169 | an upload overwrites one key's content and metadata and keeps every other blob |
| Store.Container.DeleteIfExists | src/index.ts:130 | succeeds iff the blob exists and the service carries out the delete; then exactly that key is gone |
| Client.ResolveConfig | src/index.ts:23-35 | each option wins over its environment variable; a missing connection string is reported before a missing container name, and these are the only failures; on success both are non-empty |
| Client.BlobStorageClient.Create | src/index.ts:23-35 | the constructor fails exactly as the configuration check does, otherwise binds the resolved connection string and container name |
| Client.LooksLikeDataUrl | src/index.ts:175 | the text is at least six characters, starts with "data:" and has a comma after it |
| Client.Header | src/index.ts:179 | the text between "data:" and the first comma, which it precedes |
| Client.ParseDataUrl | src/index.ts:174-189 | nothing iff the text does not start with "data:" or has no comma; a malformed-data-URL error iff the header has no ';' |
| Client.ParsedShape | src/index.ts:179-188 | a parsed type and encoding hold no ';' or ','; the header starts with them joined by ';'; the data is everything after the first comma |
| Client.ParsedExactly | src/index.ts:179-188 | when the header has exactly one ';', the text is the composition of the three parsed parts |
| Client.RoundTrip | src/index.ts:174-189 | for a type and encoding free of ';' and ',', parsing the composed data URL gives them and any data back |
| Client.Envelope | src/index.ts:166 | the envelope of an object parses back to type application/json, encoding utf-8 and the JSON text |
| Client.DataUrlMetadata | src/index.ts:158-161 | the metadata `save` derives has exactly the keys encoding and type, with the data URL's values |
| Client.Truthy | src/index.ts:147 | `!content` throws exactly for null and the empty string; every object passes |
| Client.PrepareSave | src/index.ts:143-166 | the errors, each iff its condition, in the source's order, and no other error, so a valid save always prepares an upload; an object is stored in its envelope with the caller's metadata; text is stored as is; a data URL's metadata is added only when the caller gave none |
| Client.BlobStorageClient.Save | src/index.ts:142-172 | on success only the blob at `path` changes, to the prepared text and metadata, and `path` is returned; on error nothing changes |
| Client.ListedItem | src/index.ts:101-107 | a listed item has the key as path, its name is the key's `basename` (so "b" for "a/b/"), which has no '/', and no data, encoding, extension or type |
| Client.ListPrefix | src/index.ts:92-94 | the prefix is empty exactly for "*" (and ""), and the path itself otherwise |
| Client.ListedItems | src/index.ts:100-108 | one item per listed key, in listing order, named after the key's last segment, with the key as path |
| Client.BlobStorageClient.List | src/index.ts:83-111 | fails iff the path is empty; otherwise one item per key that starts with the prefix ("*" meaning every key), in key order |
| Client.BlobStorageClient.Targets | src/index.ts:44 | the path alone when it is a blob, else the listing `list` makes for it, in listing order |
| Client.BadJson | src/index.ts:74 | a text on which `JSON.parse` fails is an application/json data URL: it begins with `data:application/json;` |
| Client.ReadItem | src/index.ts:57-75 | reading a blob fails with the malformed-data-URL error iff its text is one, and with a JSON syntax error iff it is an application/json data URL whose payload is not JSON |
| Client.ReadItemFields | src/index.ts:59-75 | the item's path is the key and its name the basename; it has an extension iff the name has a '.', and it is `ClassExtension` of the name; a data URL gives its type, encoding and payload (a JSON value for application/json), other text stays as is |
| Client.Readable | src/index.ts:52-55 | the targets with a body, in order |
| Client.ReadItems | src/index.ts:48-78 | `get`'s loop yields at most one item per target, and fails only with the malformed-data-URL error or a JSON syntax error |
| Client.ReadItemsShape | src/index.ts:48-80 | on success, one item per target with a body, in target order, each the item read from that target's text |
| Client.ReadItemsFirstError | src/index.ts:48-75 | when `get` fails, its error is that of the first target with a body that cannot be read; every earlier target with a body reads |
| Client.ReadItemsFail | src/index.ts:69-75 | `get` fails iff some target with a body holds a malformed data URL or an application/json data URL whose payload is not JSON |
| Client.BlobStorageClient.Get | src/index.ts:37-81 | fails on an empty path; otherwise reads the targets in order, skipping those without a body and failing on the first unreadable text; returns [] when nothing matches |
| Client.SaveThenRead | src/index.ts:166 | what `save` stores is read back at that path as one item: an object as its JSON value with type application/json and encoding utf-8, plain text as itself, a data URL with its type, its encoding and its payload (a JSON value for application/json); reading fails, with a JSON syntax error, exactly when the saved text is an application/json data URL whose payload is not JSON |
| Client.Deletable | src/index.ts:125-137 | the keys `remove` deletes are exactly the listed ones whose name is not excluded and whose delete succeeds, in listing order |
| Client.BlobStorageClient.DeleteListed | src/index.ts:123-139 | the loop returns the deletable keys in listing order, and exactly those leave the container |
| Client.BlobStorageClient.Remove | src/index.ts:113-140 | fails iff the path is empty; returns the deleted paths in listing order; only they leave the container; excluded blobs stay unchanged; without exclusions or refusals nothing under the prefix remains |
| LegacyClient.GetConnectionString | src/index.js:17-21 | the option, else the environment variable; throws iff both are empty |
| LegacyClient.GetContainerName | src/index.js:23-27 | the option, else the environment variable; throws (with the connection-string error) iff both are empty |
| LegacyClient.ContainerConfig | src/index.js:98-107 | the container configuration fails iff either getter fails, else holds both values |
| LegacyClient.ParseDataUrl | src/index.js:47-67 | a result only for text starting with "data:", with non-empty type, encoding and data |
| LegacyClient.ParsedShape | src/index.js:53-66 | whatever the legacy parser returns has no ';' or ',' in type and encoding and no ',' in the data, and composes back to the text |
| LegacyClient.RoundTrip | src/index.js:47-67 | every such data URL, composed, parses back to itself |
| LegacyClient.EntryName | src/index.js:130 | the listed name is the text after the last '/', or the whole key |
| LegacyClient.List | src/index.js:117-137 | fails on an empty path, then on missing configuration; otherwise one entry per key that starts with the path, in key order |
| LegacyClient.ListedEntries | src/index.js:128-132 | one entry per listed key, in listing order, named by the text after the key's last '/', with the key as path |
| LegacyClient.ReadItem | src/index.js:176-192 | the item keeps the key as path and the raw text as data |
| LegacyClient.ReadItemFields | src/index.js:176-189 | name after the last '/'; an extension iff the name has a '.', namely the text after its last '.'; type and encoding iff the text parses |
| LegacyClient.ReadAll | src/index.js:166-196 | fails iff some target has no body; otherwise one item per target, in order |
| LegacyClient.ReadTargets | src/index.js:166-196 | the download loop computes `ReadAll` |
| LegacyClient.Targets | src/index.js:155-163 | the path when it is a blob; else the listing made with the environment's configuration, not-found iff it is empty |
| LegacyClient.Shape | src/index.js:198-203 | a single item when one was read, an array when more were, an error iff none |
| LegacyClient.Get | src/index.js:147-204 | validation, configuration, targets, reading and shaping in that order; the "could not retrieve" error is never raised |
| LegacyClient.PrepareSave | src/index.js:216-236 | the errors in the source's order, naming the first reserved character, and no other error; the metadata is overwritten with the data URL's type and encoding whenever the content parses |
| LegacyClient.Save | src/index.js:216-244 | on success only the blob at `path` changes and `path` is returned; on error nothing changes |
| LegacyClient.NonEmpty | src/index.js:269-270 | the recorded paths are the non-empty listed ones, in order |
| LegacyClient.NonEmptyKeepsAll | src/index.js:269 | the empty-path guard drops nothing from a listing of non-empty keys |
| LegacyClient.DeleteAll | src/index.js:266-274 | every non-empty listed path is recorded in order; exactly the ones whose delete succeeds leave the container |
| LegacyClient.Remove | src/index.js:255-275 | nothing when the listing is empty, and then the container is unchanged; else every listed path in order, and exactly the ones whose delete succeeds leave the container |
| Compatibility.LegacyAcceptedIsParsed | src/index.js:47-67 | every data URL the legacy parser accepts is parsed identically by the class's parser |
| Compatibility.CommaInData | src/index.js:54-55 | with a comma in the data the class keeps everything after the first comma while the legacy parser returns nothing |
| Compatibility.ExtraParameterParsed | src/index.ts:179-188 | with a third ';'-part the class takes the first two parts as type and encoding |
| Compatibility.ExtraParameterRejected | src/index.js:56-57 | with a third ';'-part the legacy parser returns nothing |
| Compatibility.NoEncodingThrows | src/index.ts:180-182 | `data:<type>,<data>` makes the class throw the malformed-data-URL error |
| Compatibility.NoEncodingRejected | src/index.js:57-66 | `data:<type>,<data>` makes the legacy parser return nothing |

## Left out

- `streamToBuffer` (src/index.ts:191-198, src/index.js:34-41) is event-driven stream I/O. A blob's content is its already-decoded text. `get`'s `encoding` argument and `Buffer.byteLength` are not modelled.
- `JSON.stringify` and `JSON.parse` are not modelled as functions. An object given to `save` is represented by its JSON text (`Content.Structured`). A JSON value `get` returns is represented by the text it is parsed from (`Data.Json`). Which texts `JSON.parse` rejects is a parameter (`notJson`); such a payload makes the class's `get` fail with `JsonSyntaxError`. That the text `JSON.stringify` makes is JSON is a precondition of `Client.SaveThenRead`. That parsing it restores the object is not stated.
- The Azure SDK is replaced by `Store.Container`. Not modelled: connection handling, service errors on upload, listing, download or delete (a rejected `deleteIfExists` would propagate out of both `remove` functions), `storagePipelineOptions`, and upload and delete options other than the metadata. A blob without a download body (`unreadable`) and a delete that does not succeed (`refused`) are parameters.
- The class's `list` takes `options: ContainerListBlobsOptions` (src/index.ts:83-100) and passes them to the listing. `Client.BlobStorageClient.List` drops that argument: the listing is always the plain one, each key once. Options such as `includeSnapshots`, `includeVersions` or `includeDeleted`, which add entries for the same key, are not modelled.
- Blob properties (`blobType`, timestamps and the other fields the class spreads into listed items) are not modelled. Items carry only name, path and the fields `get` adds.
- Listing order is lexicographic by character, as the stand-in keeps it. The service's own ordering of non-ASCII keys is not modelled.
- Caller objects the source mutates are not modelled as mutated: `options.prefix` in both `list` functions, and `options` / `options.metadata` in both `save` functions. The metadata that goes with the upload is returned and stored instead.
- Each legacy function builds its container client from its own configuration. The model runs every legacy call against the one container it is given, including `get`'s fallback `list(path)`, which uses the environment alone.
- The legacy `save` accepts only text. Non-string content given to it is not modelled.
- `console` logging is not modelled.
- `move` is declared in src/types/BlobStorageClient.type.ts but is not implemented in either source file, so there is nothing to model.
- src/index.d.ts holds declarations only. The dev scripts under tests/ are not part of this model.
- `createBlobServiceClient` (src/index.js:81-87) only builds an SDK client. The model keeps only its configuration check, `GetConnectionString`.
- Asynchrony and concurrent callers are not modelled: every operation runs to completion alone.
- Compatibility.ExtraParameterRejected: it is stated only for data without a comma. With a comma in the data the legacy parser rejects the text for that reason alone, as `Compatibility.CommaInData` shows.
- Paths.Extname: node's `extname` is modelled only for names without '/', which is how both clients call it.
- Paths.Basename and Paths.Extname model node's POSIX path functions. src/index.ts:1 imports them from `node:path`, which on Windows uses the Windows variants: these also split at `\` and skip a drive prefix such as `C:`. Those variants are not modelled, so on Windows a listed key holding `\` may get another name than the model gives it, and `remove` compares that name with `excludeBlobNames`.

=== FILE: client.dfy ===
/** The `BlobStorageClient` class of src/index.ts: its configuration check,
    its data-URL parser, and `list`, `get`, `save` and `remove` over a
    container. */
module Client {
  import opened Results
  import opened Strings
  import opened Paths
  import opened DataUrls
  import opened Store

  /** The errors the class throws. */
  datatype Error =
    | MissingConnectionString
    | MissingContainerName
    | PathRequired
    | ContentRequired
    | UnallowedCharacters
    | MalformedDataUrl
    | JsonSyntaxError

  /** The `connectionString` and `containerName` options; "" when not given. */
  datatype ClientOptions = ClientOptions(connectionString: string, containerName: string)

  /** AZURE_BLOB_CONNECTION_STRING and AZURE_BLOB_CONTAINER_NAME; "" when unset. */
  datatype Environment = Environment(connectionString: string, containerName: string)

  datatype Config = Config(connectionString: string, containerName: string)

  /** What `save` is given: a string, an object (here: the text JSON.stringify
      makes of it) or null. */
  datatype Content = Text(text: string) | Structured(json: string) | Null

  /** The data of a fetched item: text, or the value JSON.parse makes of `source`. */
  datatype Data = Raw(text: string) | Json(source: string)

  /** A `BlobStorageItem`; `data`, `encoding`, `extension` and `mimeType` (the
      item's `type`) are present only on items `get` returns. */
  datatype Item = Item(
    name: string,
    path: string,
    data: Option<Data>,
    encoding: Option<string>,
    extension: Option<string>,
    mimeType: Option<string>)

  /** What `save` hands to the upload: the text and the caller's options.metadata. */
  datatype Upload = Upload(content: string, metadata: Option<map<string, string>>)

  /** The constructor's configuration check: each option wins over its
      environment variable, and the connection string is checked first. */
  function ResolveConfig(options: ClientOptions, env: Environment): (r: Result<Config, Error>)
    ensures r == Err(MissingConnectionString) <==> options.connectionString == "" && env.connectionString == ""
    ensures r == Err(MissingContainerName) <==>
      (options.connectionString != "" || env.connectionString != "") && options.containerName == "" && env.containerName == ""
    ensures r.Err? ==> r.error == MissingConnectionString || r.error == MissingContainerName
    ensures r.Ok? ==> r.value.connectionString != "" && r.value.containerName != ""
    ensures r.Ok? ==> r.value.connectionString == if options.connectionString != "" then options.connectionString else env.connectionString
    ensures r.Ok? ==> r.value.containerName == if options.containerName != "" then options.containerName else env.containerName
  {
    var connectionString := Fallback(options.connectionString, env.connectionString);
    if connectionString == "" then Err(MissingConnectionString)
    else
      var containerName := Fallback(options.containerName, env.containerName);
      if containerName == "" then Err(MissingContainerName)
      else Ok(Config(connectionString, containerName))
  }

  /** Text that `parseDataUrl` looks into: it starts with "data:" and has a comma. */
  predicate LooksLikeDataUrl(text: string)
    ensures LooksLikeDataUrl(text) <==> |text| >= 6 && text[..5] == "data:" && ',' in text[5..]
  {
    assert |text| >= 5 && text[..5] == "data:" ==> text == text[..5] + text[5..];
    StartsWith(text, "data:") && ',' in text
  }

  /** The text between "data:" and the first comma. */
  function Header(text: string): (h: string)
    requires LooksLikeDataUrl(text)
    ensures ',' !in h
    ensures |h| + 6 <= |text| && text[..|h| + 6] == "data:" + h + ","
  {
    var comma := IndexOf(text, ',').value;
    assert text[..5] == "data:";
    assert ',' !in text[..5];
    text[5..comma]
  }

  /** `parseDataUrl`: no result unless the text starts with "data:" and has a
      comma; an error when the part before the first comma has no ';'; else
      the first two ';'-parts of that header and everything after the comma. */
  function ParseDataUrl(text: string): (r: Result<Option<DataUrl>, Error>)
    ensures r == Ok(None) <==> !LooksLikeDataUrl(text)
    ensures r.Err? <==> LooksLikeDataUrl(text) && ';' !in Header(text)
    ensures r.Err? ==> r.error == MalformedDataUrl
  {
    if text == "" || !StartsWith(text, "data:") || ',' !in text then Ok(None)
    else
      var header := Header(text);
      var parts := Split(header, ';');
      if |parts| < 2 then
        Err(MalformedDataUrl)
      else
        Ok(Some(DataUrl(parts[0], parts[1], text[|header| + 6..])))
  }

  /** A text `parseDataUrl` looks into is "data:", its header, a comma and the rest. */
  lemma HeaderText(text: string)
    requires LooksLikeDataUrl(text)
    ensures text == "data:" + Header(text) + "," + text[|Header(text)| + 6..]
  {
    var h := Header(text);
    assert text == text[..|h| + 6] + text[|h| + 6..];
  }

  /** The first two ';'-parts of a header: free of ';', the header starts with
      them joined by ';', and is exactly that when there are only two. */
  lemma HeaderParts(h: string)
    requires |Split(h, ';')| >= 2
    ensures var parts := Split(h, ';');
      && ';' !in parts[0] && ';' !in parts[1]
      && StartsWith(h, parts[0] + ";" + parts[1])
      && (|parts| == 2 ==> h == parts[0] + ";" + parts[1])
  {
    var parts := Split(h, ';');
    SplitPiecesFree(h, ';');
    SplitJoin(h, ';');
    JoinHead(parts, ';');
  }

  /** A parsed data URL: type and encoding are free of ';' and ',', the
      header starts with them and the separator between them, and the data is
      everything after the first comma. */
  lemma ParsedShape(text: string)
    requires ParseDataUrl(text).Ok? && ParseDataUrl(text).value.Some?
    ensures LooksLikeDataUrl(text)
    ensures var u := ParseDataUrl(text).value.value;
      && ';' !in u.mimeType && ',' !in u.mimeType && ';' !in u.encoding && ',' !in u.encoding
      && StartsWith(Header(text), u.mimeType + ";" + u.encoding)
      && text == "data:" + Header(text) + "," + u.data
  {
    var h := Header(text);
    var u := ParseDataUrl(text).value.value;
    HeaderText(text);
    HeaderParts(h);
    PrefixFree(u.mimeType + ";" + u.encoding, h, ',');
  }

  /** A parsed text begins with "data:", its type and a ';'. */
  lemma ParsedPrefix(text: string)
    requires ParseDataUrl(text).Ok? && ParseDataUrl(text).value.Some?
    ensures StartsWith(text, "data:" + ParseDataUrl(text).value.value.mimeType + ";")
  {
    var h := Header(text);
    var u := ParseDataUrl(text).value.value;
    ParsedShape(text);
    PrefixOfConcat(u.mimeType + ";", u.encoding);
    PrefixTransitive(u.mimeType + ";", u.mimeType + ";" + u.encoding, h);
    PrefixUnderConcat("data:", u.mimeType + ";", h);
    Associate("data:", u.mimeType, ";");
    PrefixOfConcat("data:" + h, ",");
    PrefixOfConcat("data:" + h + ",", u.data);
    PrefixTransitive("data:" + (u.mimeType + ";"), "data:" + h, "data:" + h + ",");
    PrefixTransitive("data:" + (u.mimeType + ";"), "data:" + h + ",", text);
  }

  /** When the header holds exactly one ';', the parsed text is the
      composition of its three parts: nothing was dropped. */
  lemma ParsedExactly(text: string)
    requires ParseDataUrl(text).Ok? && ParseDataUrl(text).value.Some?
    requires |Split(Header(text), ';')| == 2
    ensures text == Compose(ParseDataUrl(text).value.value)
  {
    var h := Header(text);
    var u := ParseDataUrl(text).value.value;
    HeaderText(text);
    HeaderParts(h);
    ComposedText(u);
    assert text == "data:" + h + ("," + u.data);
  }

  lemma ComposedText(u: DataUrl)
    ensures Compose(u) == "data:" + (u.mimeType + ";" + u.encoding) + ("," + u.data)
  {
  }

  /** The first comma of a composed data URL is the one after its encoding. */
  lemma ComposedComma(u: DataUrl)
    requires ',' !in u.mimeType && ',' !in u.encoding
    ensures IndexOf(Compose(u), ',') == Some(|u.mimeType + ";" + u.encoding| + 5)
  {
    var a := "data:" + (u.mimeType + ";" + u.encoding);
    ComposedText(u);
    assert ',' !in a;
    Associate(a, [','], u.data);
    IndexOfAt(a, ',', u.data);
  }

  /** The header of a composed data URL is its type, ';' and its encoding. */
  lemma ComposedHeader(u: DataUrl)
    requires ',' !in u.mimeType && ',' !in u.encoding
    ensures LooksLikeDataUrl(Compose(u))
    ensures Header(Compose(u)) == u.mimeType + ";" + u.encoding
  {
    ComposedText(u);
    ComposedComma(u);
    Slices("data:", u.mimeType + ";" + u.encoding, "," + u.data);
  }

  /** What follows the header's comma is the data. */
  lemma ComposedData(u: DataUrl)
    ensures Compose(u)[|u.mimeType + ";" + u.encoding| + 6..] == u.data
  {
    ComposedText(u);
    assert Compose(u) == ("data:" + (u.mimeType + ";" + u.encoding) + ",") + u.data;
  }

  /** Composing a data URL whose type and encoding hold no ';' or ',' and
      parsing it gives the same three parts back, whatever the data. */
  lemma RoundTrip(u: DataUrl)
    requires ';' !in u.mimeType && ',' !in u.mimeType
    requires ';' !in u.encoding && ',' !in u.encoding
    ensures ParseDataUrl(Compose(u)) == Ok(Some(u))
  {
    ComposedHeader(u);
    ComposedData(u);
    SplitAt(u.mimeType, ';', u.encoding);
    SplitWithout(u.encoding, ';');
    assert u.mimeType + ";" + u.encoding == u.mimeType + [';'] + u.encoding;
  }

  /** The text `save` stores for structured content, `data:application/json;utf-8,`
      followed by the JSON text; it parses back to that type, that encoding
      and the JSON text. */
  function Envelope(json: string): (s: string)
    ensures ParseDataUrl(s) == Ok(Some(DataUrl("application/json", "utf-8", json)))
  {
    var u := DataUrl("application/json", "utf-8", json);
    RoundTrip(u);
    Compose(u)
  }

  /** The metadata `save` derives from a data URL. */
  function DataUrlMetadata(u: DataUrl): (m: map<string, string>)
    ensures m.Keys == {"encoding", "type"}
    ensures m["encoding"] == u.encoding && m["type"] == u.mimeType
  {
    map["encoding" := u.encoding, "type" := u.mimeType]
  }

  /** JavaScript truthiness of `save`'s content: null and "" are falsy, every object is truthy. */
  predicate Truthy(content: Content)
    ensures Truthy(content) <==> content != Null && content != Text("")
  {
    match content
    case Text(text) => text != ""
    case Structured(_) => true
    case Null => false
  }

  /** The checks and the preparation `save` performs before its upload: the
      text to store and the metadata to store it with. */
  function PrepareSave(path: string, content: Content, metadata: Option<map<string, string>>): (r: Result<Upload, Error>)
    ensures r == Err(PathRequired) <==> path == ""
    ensures r == Err(ContentRequired) <==> path != "" && !Truthy(content)
    ensures r == Err(UnallowedCharacters) <==> path != "" && Truthy(content) && HasUnallowedCharacter(path)
    ensures r == Err(MalformedDataUrl) <==>
      path != "" && Truthy(content) && !HasUnallowedCharacter(path) && content.Text? && ParseDataUrl(content.text).Err?
    ensures r.Err? ==>
      r.error == PathRequired || r.error == ContentRequired || r.error == UnallowedCharacters || r.error == MalformedDataUrl
    ensures r.Ok? && content.Structured? ==>
      r.value == Upload(Envelope(content.json), metadata)
    ensures r.Ok? && content.Text? ==> r.value.content == content.text
    ensures r.Ok? && content.Text? && metadata.None? && LooksLikeDataUrl(content.text) ==>
      r.value.metadata == Some(DataUrlMetadata(ParseDataUrl(content.text).value.value))
    ensures r.Ok? && (metadata.Some? || !content.Text? || !LooksLikeDataUrl(content.text)) ==> r.value.metadata == metadata
  {
    if path == "" then Err(PathRequired)
    else if !Truthy(content) then Err(ContentRequired)
    else if HasUnallowedCharacter(path) then Err(UnallowedCharacters)
    else
      match content
      case Structured(json) => Ok(Upload(Envelope(json), metadata))
      case Text(text) =>
        match ParseDataUrl(text)
        case Err(e) => Err(e)
        case Ok(None) => Ok(Upload(text, metadata))
        case Ok(Some(u)) => Ok(Upload(text, if metadata.None? then Some(DataUrlMetadata(u)) else metadata))
  }

  /** The item `list` makes of a key: its name and its path, no content. */
  function ListedItem(key: string): (r: Item)
    ensures r.path == key && r.name == Basename(key) && '/' !in r.name
    ensures (key == [] || key[|key| - 1] != '/') ==> r.name == AfterLast(key, '/')
    ensures r.data.None? && r.encoding.None? && r.extension.None? && r.mimeType.None?
  {
    Item(Basename(key), key, None, None, None, None)
  }

  /** `list`'s prefix: "*" stands for the whole container. */
  function ListPrefix(path: string): (r: string)
    ensures r == "" <==> path == "" || path == "*"
    ensures path != "*" ==> r == path
  {
    if path == "*" then "" else path
  }

  /** A data URL of type application/json whose payload `JSON.parse` rejects;
      `notJson` holds the texts that are not JSON. */
  predicate BadJson(text: string, notJson: set<string>)
    ensures BadJson(text, notJson) ==> StartsWith(text, "data:application/json;")
  {
    var p := ParseDataUrl(text);
    if p.Ok? && p.value.Some? && p.value.value.mimeType == "application/json" then
      ParsedPrefix(text);
      JsonPrefix(p.value.value.mimeType, text);
      p.value.value.data in notJson
    else false
  }

  lemma JsonPrefix(mimeType: string, text: string)
    requires mimeType == "application/json"
    requires StartsWith(text, "data:" + mimeType + ";")
    ensures StartsWith(text, "data:application/json;")
  {
  }

  /** The item `get` makes of a downloaded blob: named after the last segment
      of its key, with an extension when the name has a '.', and, when the
      text is a data URL, its type, its encoding and its payload as data (a
      JSON value for type application/json). A malformed data URL fails, and
      so does an application/json payload that is not JSON. */
  function ReadItem(path: string, text: string, notJson: set<string>): (r: Result<Item, Error>)
    ensures r == Err(MalformedDataUrl) <==> ParseDataUrl(text).Err?
    ensures r == Err(JsonSyntaxError) <==> BadJson(text, notJson)
    ensures r.Err? ==> r.error == MalformedDataUrl || r.error == JsonSyntaxError
  {
    var name := Basename(path);
    var extension := if '.' in name then Some(ClassExtension(name)) else None;
    match ParseDataUrl(text)
    case Err(e) => Err(e)
    case Ok(None) => Ok(Item(name, path, Some(Raw(text)), None, extension, None))
    case Ok(Some(u)) =>
      if u.mimeType == "application/json" && u.data in notJson then Err(JsonSyntaxError)
      else
        var data := if u.mimeType == "application/json" then Json(u.data) else Raw(u.data);
        Ok(Item(name, path, Some(data), Some(u.encoding), extension, Some(u.mimeType)))
  }

  /** The fields of a read item. */
  lemma ReadItemFields(path: string, text: string, notJson: set<string>)
    requires ReadItem(path, text, notJson).Ok?
    ensures var item := ReadItem(path, text, notJson).value;
      && item.path == path && item.name == Basename(path)
      && (item.extension.Some? <==> '.' in Basename(path))
      && ('.' in Basename(path) ==> item.extension == Some(ClassExtension(Basename(path))))
      && (!LooksLikeDataUrl(text) ==>
        item.data == Some(Raw(text)) && item.encoding.None? && item.mimeType.None?)
      && (LooksLikeDataUrl(text) ==>
        var u := ParseDataUrl(text).value.value;
        && item.mimeType == Some(u.mimeType) && item.encoding == Some(u.encoding)
        && item.data == Some(if u.mimeType == "application/json" then Json(u.data) else Raw(u.data)))
  {
  }

  /** The targets whose download has a body. */
  function Readable(targets: seq<string>, unreadable: set<string>): (r: seq<string>)
    ensures forall t :: t in r <==> t in targets && t !in unreadable
    ensures IsSubsequence(r, targets)
  {
    Filter(targets, t => t !in unreadable)
  }

  /** The items read so far put before the outcome of reading the rest. */
  function Prepend(items: seq<Item>, rest: Result<seq<Item>, Error>): Result<seq<Item>, Error> {
    match rest
    case Ok(more) => Ok(items + more)
    case Err(e) => Err(e)
  }

  /** `get`'s loop over its targets: a target without a body is skipped, the
      first target that cannot be read (a malformed data URL, a payload that
      is not JSON) ends it with that error, every other target becomes one
      item, in target order. */
  function ReadItems(targets: seq<string>, blobs: map<string, Blob>, unreadable: set<string>, notJson: set<string>)
    : (r: Result<seq<Item>, Error>)
    requires forall t :: t in targets ==> t in blobs
    ensures r.Ok? ==> |r.value| <= |targets|
    ensures r.Err? ==> r.error == MalformedDataUrl || r.error == JsonSyntaxError
  {
    if targets == [] then Ok([])
    else
      var t := targets[0];
      var rest := ReadItems(targets[1..], blobs, unreadable, notJson);
      if t in unreadable then
        rest
      else
        match ReadItem(t, blobs[t].content, notJson)
        case Err(e) => Err(e)
        case Ok(item) => Prepend([item], rest)
  }

  /** `get` yields one item per target with a body, in target order, each the
      item made of that target's text. */
  lemma {:induction false} ReadItemsShape(targets: seq<string>, blobs: map<string, Blob>, unreadable: set<string>, notJson: set<string>)
    requires forall t :: t in targets ==> t in blobs
    requires ReadItems(targets, blobs, unreadable, notJson).Ok?
    ensures var items := ReadItems(targets, blobs, unreadable, notJson).value;
      var readable := Readable(targets, unreadable);
      && |items| == |readable|
      && forall i :: 0 <= i < |items| ==> ReadItem(readable[i], blobs[readable[i]].content, notJson) == Ok(items[i])
  {
    if targets != [] {
      var t := targets[0];
      var rest := targets[1..];
      ReadItemsShape(rest, blobs, unreadable, notJson);
      var readable := Readable(rest, unreadable);
      var items := ReadItems(rest, blobs, unreadable, notJson).value;
      if t in unreadable {
        assert Readable(targets, unreadable) == readable;
      } else {
        var item := ReadItem(t, blobs[t].content, notJson).value;
        assert Readable(targets, unreadable) == [t] + readable;
        assert ReadItems(targets, blobs, unreadable, notJson).value == [item] + items;
        forall i | 0 <= i < |items| + 1
          ensures ([t] + readable)[i] in blobs
          ensures ReadItem(([t] + readable)[i], blobs[([t] + readable)[i]].content, notJson) == Ok(([item] + items)[i])
        {
          if i > 0 {
            assert ([t] + readable)[i] == readable[i - 1];
            assert ([item] + items)[i] == items[i - 1];
          }
        }
      }
    }
  }

  /** `get` fails exactly when some target with a body holds a malformed data
      URL or an application/json data URL whose payload is not JSON. */
  lemma {:induction false} ReadItemsFail(targets: seq<string>, blobs: map<string, Blob>, unreadable: set<string>, notJson: set<string>)
    requires forall t :: t in targets ==> t in blobs
    ensures ReadItems(targets, blobs, unreadable, notJson).Err? <==>
      exists t :: t in targets && t !in unreadable && ReadItem(t, blobs[t].content, notJson).Err?
  {
    if targets != [] {
      ReadItemsFail(targets[1..], blobs, unreadable, notJson);
      ReadItemsFailStep(targets, blobs, unreadable, notJson);
    }
  }

  /** The target at `i` is the first one with a body that fails to read, and it fails with `e`. */
  ghost predicate FirstFailure(targets: seq<string>, i: int, blobs: map<string, Blob>, unreadable: set<string>,
                               notJson: set<string>, e: Error)
    requires forall t :: t in targets ==> t in blobs
  {
    && 0 <= i < |targets| && targets[i] !in unreadable
    && ReadItem(targets[i], blobs[targets[i]].content, notJson) == Err(e)
    && forall j :: 0 <= j < i && targets[j] !in unreadable ==> ReadItem(targets[j], blobs[targets[j]].content, notJson).Ok?
  }

  /** When `get` fails, its error is that of the first target with a body
      that cannot be read. */
  lemma {:induction false} ReadItemsFirstError(targets: seq<string>, blobs: map<string, Blob>, unreadable: set<string>,
                                               notJson: set<string>)
    requires forall t :: t in targets ==> t in blobs
    requires ReadItems(targets, blobs, unreadable, notJson).Err?
    ensures exists i :: FirstFailure(targets, i, blobs, unreadable, notJson, ReadItems(targets, blobs, unreadable, notJson).error)
  {
    var t := targets[0];
    var e := ReadItems(targets, blobs, unreadable, notJson).error;
    if t !in unreadable && ReadItem(t, blobs[t].content, notJson).Err? {
      assert FirstFailure(targets, 0, blobs, unreadable, notJson, e);
    } else {
      ReadItemsFirstError(targets[1..], blobs, unreadable, notJson);
      var i :| FirstFailure(targets[1..], i, blobs, unreadable, notJson, ReadItems(targets[1..], blobs, unreadable, notJson).error);
      FirstFailureShift(targets, i, blobs, unreadable, notJson, e);
    }
  }

  /** A first failure in the rest is a first failure overall when the first target reads or is skipped. */
  lemma FirstFailureShift(targets: seq<string>, i: int, blobs: map<string, Blob>, unreadable: set<string>,
                          notJson: set<string>, e: Error)
    requires targets != [] && forall t :: t in targets ==> t in blobs
    requires targets[0] in unreadable || ReadItem(targets[0], blobs[targets[0]].content, notJson).Ok?
    requires ReadItems(targets, blobs, unreadable, notJson) == Err(e)
    requires FirstFailure(targets[1..], i, blobs, unreadable, notJson, ReadItems(targets[1..], blobs, unreadable, notJson).error)
    ensures FirstFailure(targets, i + 1, blobs, unreadable, notJson, e)
  {
    assert ReadItems(targets[1..], blobs, unreadable, notJson).Err?;
    forall j | 0 <= j < i + 1 && targets[j] !in unreadable
      ensures ReadItem(targets[j], blobs[targets[j]].content, notJson).Ok?
    {
      if j > 0 {
        assert targets[j] == targets[1..][j - 1];
      }
    }
  }

  /** The inductive step of `ReadItemsFail`: the first target, then the rest. */
  lemma ReadItemsFailStep(targets: seq<string>, blobs: map<string, Blob>, unreadable: set<string>, notJson: set<string>)
    requires targets != [] && forall t :: t in targets ==> t in blobs
    requires ReadItems(targets[1..], blobs, unreadable, notJson).Err? <==>
      exists t :: t in targets[1..] && t !in unreadable && ReadItem(t, blobs[t].content, notJson).Err?
    ensures ReadItems(targets, blobs, unreadable, notJson).Err? <==>
      exists t :: t in targets && t !in unreadable && ReadItem(t, blobs[t].content, notJson).Err?
  {
    var first, rest := targets[0], targets[1..];
    assert targets == [first] + rest;
    if first !in unreadable && ReadItem(first, blobs[first].content, notJson).Err? {
      assert first in targets;
    } else {
      assert ReadItems(targets, blobs, unreadable, notJson).Err? <==> ReadItems(rest, blobs, unreadable, notJson).Err?;
      forall t | t in targets && t !in unreadable && ReadItem(t, blobs[t].content, notJson).Err?
        ensures t in rest
      {
      }
    }
  }

  /** The listed keys `remove` deletes: those whose name is not excluded and
      whose delete the service carries out, in listing order. */
  function Deletable(listing: seq<string>, exclude: seq<string>, refused: set<string>): (r: seq<string>)
    ensures forall k :: k in r <==> k in listing && Basename(k) !in exclude && k !in refused
    ensures IsSubsequence(r, listing)
  {
    Filter(listing, k => Basename(k) !in exclude && k !in refused)
  }

  /** `list`'s loop: one item per listed key, in order. */
  method ListedItems(keys: seq<string>) returns (items: seq<Item>)
    ensures |items| == |keys|
    ensures forall i :: 0 <= i < |keys| ==> items[i] == ListedItem(keys[i])
  {
    ghost var expected := seq(|keys|, j requires 0 <= j < |keys| => ListedItem(keys[j]));
    items := [];
    var i := 0;
    while i < |keys|
      invariant 0 <= i <= |keys|
      invariant items == expected[..i]
    {
      items := items + [ListedItem(keys[i])];
      i := i + 1;
      assert items == expected[..i];
    }
    assert expected[..|keys|] == expected;
  }

  /** A `BlobStorageClient` bound to one container, the one its connection
      string and container name designate. */
  class BlobStorageClient {
    const connectionString: string
    const containerName: string
    const container: Container

    ghost predicate Valid()
      reads this, container
    {
      connectionString != "" && containerName != "" && container.Valid()
    }

    constructor (config: Config, container: Container)
      requires config.connectionString != "" && config.containerName != ""
      requires container.Valid()
      ensures Valid()
      ensures connectionString == config.connectionString && containerName == config.containerName
      ensures this.container == container
    {
      connectionString := config.connectionString;
      containerName := config.containerName;
      this.container := container;
    }

    /** `new BlobStorageClient(options)`: fails as the configuration check
        does, otherwise binds the configured container. */
    static method Create(options: ClientOptions, env: Environment, container: Container) returns (r: Result<BlobStorageClient, Error>)
      requires container.Valid()
      ensures r.Err? <==> ResolveConfig(options, env).Err?
      ensures r.Err? ==> r.error == ResolveConfig(options, env).error
      ensures r.Ok? ==> fresh(r.value) && r.value.Valid() && r.value.container == container
      ensures r.Ok? ==> r.value.connectionString == ResolveConfig(options, env).value.connectionString
      ensures r.Ok? ==> r.value.containerName == ResolveConfig(options, env).value.containerName
    {
      var config := ResolveConfig(options, env);
      if config.Err? {
        return Err(config.error);
      }
      var client := new BlobStorageClient(config.value, container);
      return Ok(client);
    }

    /** `list`: one item per key that starts with the prefix ("*": every
        key), in key order, named after the key's last segment. */
    method List(path: string) returns (r: Result<seq<Item>, Error>)
      requires Valid()
      ensures r.Err? <==> path == ""
      ensures r.Err? ==> r.error == PathRequired
      ensures r.Ok? ==> var keys := container.ListFlat(ListPrefix(path));
        && |r.value| == |keys|
        && forall i :: 0 <= i < |keys| ==> r.value[i] == ListedItem(keys[i])
    {
      if path == "" {
        return Err(PathRequired);
      }
      var keys := container.ListFlat(ListPrefix(path));
      var items := ListedItems(keys);
      return Ok(items);
    }

    /** The blobs `get` reads: the path itself when it is a blob, else the
        keys `list` finds for it. */
    function Targets(path: string): (r: seq<string>)
      reads this, container
      requires Valid()
      ensures forall t :: t in r ==> t in container.blobs
      ensures path in container.blobs ==> r == [path]
      ensures path !in container.blobs ==> r == container.ListFlat(ListPrefix(path))
      ensures path !in container.blobs ==>
        forall k :: k in r <==> k in container.blobs && StartsWith(k, ListPrefix(path))
    {
      if container.Exists(path) then [path] else container.ListFlat(ListPrefix(path))
    }

    /** `get`: the items of the targets, read in order. */
    method Get(path: string, unreadable: set<string>, notJson: set<string>) returns (r: Result<seq<Item>, Error>)
      requires Valid()
      ensures path == "" ==> r == Err(PathRequired)
      ensures path != "" ==> r == ReadItems(Targets(path), container.blobs, unreadable, notJson)
      ensures path != "" && (forall k :: k in container.blobs ==> !StartsWith(k, ListPrefix(path))) ==> r == Ok([])
    {
      if path == "" {
        return Err(PathRequired);
      }
      var targets := Targets(path);
      ghost var blobs := container.blobs;
      if forall k :: k in blobs ==> !StartsWith(k, ListPrefix(path)) {
        assert StartsWith(path, ListPrefix(path));
      }
      var items: seq<Item> := [];
      var i := 0;
      assert targets[0..] == targets;
      PrependNothing(ReadItems(targets, blobs, unreadable, notJson));
      while i < |targets|
        invariant 0 <= i <= |targets|
        invariant Prepend(items, ReadItems(targets[i..], blobs, unreadable, notJson)) == ReadItems(targets, blobs, unreadable, notJson)
      {
        var t := targets[i];
        ReadItemsStep(targets, i, blobs, unreadable, notJson);
        if t in unreadable {
          i := i + 1;
          continue;
        }
        var item := ReadItem(t, container.Download(t), notJson);
        if item.Err? {
          assert ReadItems(targets[i..], blobs, unreadable, notJson) == Err(item.error);
          return Err(item.error);
        }
        PrependAssociates(items, item.value, ReadItems(targets[i + 1..], blobs, unreadable, notJson));
        items := items + [item.value];
        i := i + 1;
      }
      assert targets[i..] == [];
      assert items + [] == items;
      return Ok(items);
    }

    /** `save`: checks and prepares the upload, then overwrites the blob at
        `path` with the text and the metadata; every other blob is kept. */
    method Save(path: string, content: Content, metadata: Option<map<string, string>>) returns (r: Result<string, Error>)
      requires Valid()
      modifies container
      ensures Valid()
      ensures r.Err? <==> PrepareSave(path, content, metadata).Err?
      ensures r.Err? ==> r.error == PrepareSave(path, content, metadata).error
      ensures r.Err? ==> container.blobs == old(container.blobs)
      ensures r.Ok? ==> r.value == path
      ensures r.Ok? ==> var up := PrepareSave(path, content, metadata).value;
        container.blobs == old(container.blobs)[path := Blob(up.content, up.metadata.GetOr(map[]))]
    {
      var prepared := PrepareSave(path, content, metadata);
      if prepared.Err? {
        return Err(prepared.error);
      }
      var up := prepared.value;
      container.Upload(path, up.content, up.metadata.GetOr(map[]));
      return Ok(path);
    }

    /** `remove`: deletes the listed blobs whose name is not excluded and
        returns, in listing order, the paths whose delete succeeded. */
    method Remove(path: string, excludeBlobNames: seq<string>, refused: set<string>) returns (r: Result<seq<string>, Error>)
      requires Valid()
      modifies container
      ensures Valid()
      ensures path == "" ==> r == Err(PathRequired) && container.blobs == old(container.blobs)
      ensures path != "" ==>
        r == Ok(Deletable(old(container.ListFlat(ListPrefix(path))), excludeBlobNames, refused))
      ensures r.Ok? ==> container.blobs == old(container.blobs) - Keys(r.value)
      ensures forall k :: k in old(container.blobs) && Basename(k) in excludeBlobNames ==>
        k in container.blobs && container.blobs[k] == old(container.blobs)[k]
      ensures r.Ok? && excludeBlobNames == [] && refused == {} ==>
        forall k :: k in container.blobs ==> !StartsWith(k, ListPrefix(path))
    {
      if path == "" {
        return Err(PathRequired);
      }
      var listing := container.ListFlat(ListPrefix(path));
      if |listing| == 0 {
        return Ok([]);
      }
      SortedDistinct(listing);
      var deleted := DeleteListed(listing, excludeBlobNames, refused);
      return Ok(deleted);
    }

    /** `remove`'s loop over a listing of distinct existing keys: skips the
        excluded names, deletes the others, keeps the paths whose delete
        succeeded. */
    method DeleteListed(listing: seq<string>, excludeBlobNames: seq<string>, refused: set<string>) returns (deleted: seq<string>)
      requires Valid()
      requires forall k :: k in listing ==> k in container.blobs
      requires forall i, j :: 0 <= i < j < |listing| ==> listing[i] != listing[j]
      modifies container
      ensures Valid()
      ensures deleted == Deletable(listing, excludeBlobNames, refused)
      ensures container.blobs == old(container.blobs) - Keys(deleted)
    {
      ghost var before := container.blobs;
      deleted := [];
      var i := 0;
      assert listing[0..] == listing;
      while i < |listing|
        invariant 0 <= i <= |listing|
        invariant Valid()
        invariant deleted + Deletable(listing[i..], excludeBlobNames, refused) == Deletable(listing, excludeBlobNames, refused)
        invariant forall j :: i <= j < |listing| ==> listing[j] !in deleted
        invariant container.blobs == before - Keys(deleted)
      {
        var key := listing[i];
        DeletableAdvance(listing, i, excludeBlobNames, refused, deleted);
        if Basename(key) in excludeBlobNames {
          i := i + 1;
          continue;
        }
        assert key !in Keys(deleted);
        var succeeded := container.DeleteIfExists(key, key in refused);
        if !succeeded {
          i := i + 1;
          continue;
        }
        RemoveOneMore(before, deleted, key);
        DistinctAdvance(listing, i, deleted);
        deleted := deleted + [key];
        i := i + 1;
      }
      assert listing[i..] == [];
      assert deleted + [] == deleted;
    }
  }

  /** One step of `get`'s loop: the target at `i`, then the rest. */
  lemma ReadItemsStep(targets: seq<string>, i: nat, blobs: map<string, Blob>, unreadable: set<string>, notJson: set<string>)
    requires i < |targets|
    requires forall t :: t in targets ==> t in blobs
    ensures ReadItems(targets[i..], blobs, unreadable, notJson) ==
      var t := targets[i];
      var rest := ReadItems(targets[i + 1..], blobs, unreadable, notJson);
      var item := ReadItem(t, blobs[t].content, notJson);
      if t in unreadable then rest
      else if item.Err? then Err(item.error)
      else Prepend([item.value], rest)
  {
    assert targets[i..][0] == targets[i] && targets[i..][1..] == targets[i + 1..];
  }

  /** One step of `remove`'s loop on the paths deleted so far: the key at
      `i` joins them exactly when it is kept. */
  lemma DeletableAdvance(listing: seq<string>, i: nat, exclude: seq<string>, refused: set<string>, deleted: seq<string>)
    requires i < |listing|
    requires deleted + Deletable(listing[i..], exclude, refused) == Deletable(listing, exclude, refused)
    ensures var k := listing[i];
      (if Basename(k) !in exclude && k !in refused then deleted + [k] else deleted)
        + Deletable(listing[i + 1..], exclude, refused) == Deletable(listing, exclude, refused)
  {
    var k := listing[i];
    var rest := Deletable(listing[i + 1..], exclude, refused);
    DeletableStep(listing, i, exclude, refused);
    if Basename(k) !in exclude && k !in refused {
      Associate(deleted, [k], rest);
    } else {
      assert [] + rest == rest;
    }
  }

  /** In a listing of distinct keys, the keys after `i` stay out of what was deleted up to `i`. */
  lemma DistinctAdvance(listing: seq<string>, i: nat, deleted: seq<string>)
    requires i < |listing|
    requires forall a, b :: 0 <= a < b < |listing| ==> listing[a] != listing[b]
    requires forall j :: i <= j < |listing| ==> listing[j] !in deleted
    ensures forall j :: i + 1 <= j < |listing| ==> listing[j] !in deleted + [listing[i]]
  {
  }

  /** Removing one more key from a map. */
  lemma RemoveOneMore(m: map<string, Blob>, removed: seq<string>, key: string)
    ensures m - Keys(removed + [key]) == (m - Keys(removed)) - {key}
  {
    assert Keys(removed + [key]) == Keys(removed) + {key};
  }

  /** One step of `remove`'s loop: the key at `i`, then the rest. */
  lemma DeletableStep(listing: seq<string>, i: nat, exclude: seq<string>, refused: set<string>)
    requires i < |listing|
    ensures Deletable(listing[i..], exclude, refused) ==
      var k := listing[i];
      (if Basename(k) !in exclude && k !in refused then [k] else []) + Deletable(listing[i + 1..], exclude, refused)
  {
    assert listing[i..][0] == listing[i] && listing[i..][1..] == listing[i + 1..];
  }

  lemma PrependNothing(rest: Result<seq<Item>, Error>)
    ensures Prepend([], rest) == rest
  {
    if rest.Ok? {
      assert [] + rest.value == rest.value;
    }
  }

  lemma PrependAssociates(items: seq<Item>, item: Item, rest: Result<seq<Item>, Error>)
    ensures Prepend(items, Prepend([item], rest)) == Prepend(items + [item], rest)
  {
    if rest.Ok? {
      assert items + ([item] + rest.value) == items + [item] + rest.value;
    }
  }

  /** What `save` stores, `get` reads back as one item at that path: an
      object as its JSON value with type application/json and encoding
      utf-8, plain text as itself, a data URL as its type, encoding and
      payload. The one exception is a saved application/json data URL whose
      payload is not JSON, which `save` accepts and `get` then fails on; the
      text `JSON.stringify` makes of an object is JSON. */
  lemma SaveThenRead(path: string, content: Content, metadata: Option<map<string, string>>,
                     blobs: map<string, Blob>, unreadable: set<string>, notJson: set<string>)
    requires PrepareSave(path, content, metadata).Ok?
    requires path !in unreadable
    requires content.Structured? ==> content.json !in notJson
    ensures var up := PrepareSave(path, content, metadata).value;
      var after := blobs[path := Blob(up.content, up.metadata.GetOr(map[]))];
      var r := ReadItems([path], after, unreadable, notJson);
      && (r.Err? <==> content.Text? && BadJson(content.text, notJson))
      && (r.Err? ==> r.error == JsonSyntaxError)
      && (r.Ok? ==>
        && |r.value| == 1
        && r.value[0].path == path && r.value[0].name == Basename(path)
        && (content.Structured? ==>
          && r.value[0].data == Some(Json(content.json))
          && r.value[0].mimeType == Some("application/json")
          && r.value[0].encoding == Some("utf-8"))
        && (content.Text? && !LooksLikeDataUrl(content.text) ==>
          r.value[0].data == Some(Raw(content.text)) && r.value[0].mimeType.None?)
        && (content.Text? && LooksLikeDataUrl(content.text) ==>
          var u := ParseDataUrl(content.text).value.value;
          && r.value[0].mimeType == Some(u.mimeType) && r.value[0].encoding == Some(u.encoding)
          && r.value[0].data == Some(if u.mimeType == "application/json" then Json(u.data) else Raw(u.data))))
  {
    var up := PrepareSave(path, content, metadata).value;
    var after := blobs[path := Blob(up.content, up.metadata.GetOr(map[]))];
    assert ParseDataUrl(up.content).Ok?;
    assert [path][1..] == [];
    var read := ReadItem(path, up.content, notJson);
    if read.Err? {
      assert ReadItems([path], after, unreadable, notJson) == Err(JsonSyntaxError);
    } else {
      ReadItemFields(path, up.content, notJson);
      assert ReadItems([path], after, unreadable, notJson) == Prepend([read.value], Ok([]));
    }
  }
}

=== FILE: compat.dfy ===
/** How the two data-URL parsers relate: everything the legacy parser accepts
    the class's parser reads the same way; the class's parser also accepts
    commas in the data and extra ';'-parts, and throws where the legacy one
    gives up quietly. */
module Compatibility {
  import opened Results
  import opened Strings
  import opened DataUrls
  import Client
  import LegacyClient

  /** A data URL the legacy parser accepts parses to the same type, encoding
      and data with the class's parser. */
  lemma LegacyAcceptedIsParsed(text: string)
    requires LegacyClient.ParseDataUrl(text).Some?
    ensures Client.ParseDataUrl(text) == Ok(Some(LegacyClient.ParseDataUrl(text).value))
  {
    var u := LegacyClient.ParseDataUrl(text).value;
    LegacyClient.ParsedShape(text);
    Client.RoundTrip(u);
  }

  /** A comma in the data: the class keeps everything after the first comma,
      the legacy parser returns nothing. */
  lemma CommaInData(mimeType: string, encoding: string, head: string, tail: string)
    requires ';' !in mimeType && ',' !in mimeType && ';' !in encoding && ',' !in encoding
    requires ',' !in head && ',' !in tail
    ensures var u := DataUrl(mimeType, encoding, head + "," + tail);
      && Client.ParseDataUrl(Compose(u)) == Ok(Some(u))
      && LegacyClient.ParseDataUrl(Compose(u)).None?
  {
    var u := DataUrl(mimeType, encoding, head + "," + tail);
    Client.RoundTrip(u);
    var header := mimeType + [';'] + encoding;
    LegacyClient.ComposedBody(u);
    DropPrefix("data:", header + [','] + u.data);
    assert u.data == head + [','] + tail;
    SplitAt(header, ',', u.data);
    SplitAt(head, ',', tail);
    SplitWithout(tail, ',');
  }

  /** A third ';'-part: the class takes the first two parts as type and encoding. */
  lemma ExtraParameterParsed(mimeType: string, encoding: string, parameter: string, data: string)
    requires ';' !in mimeType && ',' !in mimeType && ';' !in encoding && ',' !in encoding
    requires ',' !in parameter
    ensures Client.ParseDataUrl(Compose(DataUrl(mimeType, encoding + ";" + parameter, data)))
      == Ok(Some(DataUrl(mimeType, encoding, data)))
  {
    var v := DataUrl(mimeType, encoding + ";" + parameter, data);
    var header := mimeType + ";" + (encoding + ";" + parameter);
    Client.ComposedHeader(v);
    Client.ComposedData(v);
    assert header == mimeType + [';'] + (encoding + [';'] + parameter);
    SplitAt(mimeType, ';', encoding + [';'] + parameter);
    SplitAt(encoding, ';', parameter);
  }

  /** A third ';'-part: the legacy parser returns nothing. */
  lemma ExtraParameterRejected(mimeType: string, encoding: string, parameter: string, data: string)
    requires ';' !in mimeType && ',' !in mimeType && ';' !in encoding && ',' !in encoding
    requires ',' !in parameter && ',' !in data
    ensures LegacyClient.ParseDataUrl(Compose(DataUrl(mimeType, encoding + ";" + parameter, data))).None?
  {
    var v := DataUrl(mimeType, encoding + ";" + parameter, data);
    var header := mimeType + [';'] + v.encoding;
    LegacyClient.BodyParts(v);
    assert header == mimeType + [';'] + (encoding + [';'] + parameter);
    SplitAt(mimeType, ';', encoding + [';'] + parameter);
    SplitAt(encoding, ';', parameter);
  }

  /** "data:<type>,<data>": the class throws. */
  lemma NoEncodingThrows(mimeType: string, data: string)
    requires ';' !in mimeType && ',' !in mimeType
    ensures Client.ParseDataUrl("data:" + mimeType + "," + data) == Err(Client.MalformedDataUrl)
  {
    var text := "data:" + mimeType + "," + data;
    assert text == ("data:" + mimeType) + [','] + data;
    IndexOfAt("data:" + mimeType, ',', data);
    Slices("data:", mimeType, "," + data);
    SplitWithout(mimeType, ';');
  }

  /** "data:<type>,<data>": the legacy parser returns nothing. */
  lemma NoEncodingRejected(mimeType: string, data: string)
    requires ';' !in mimeType && ',' !in mimeType
    ensures LegacyClient.ParseDataUrl("data:" + mimeType + "," + data).None?
  {
    var text := "data:" + mimeType + "," + data;
    assert text == "data:" + (mimeType + [','] + data);
    DropPrefix("data:", mimeType + [','] + data);
    SplitAt(mimeType, ',', data);
    SplitWithout(mimeType, ';');
  }
}

=== FILE: data_urls.dfy ===
/** The content convention both clients share: `data:<type>;<encoding>,<payload>`. */
module DataUrls {

  /** What a parsed data URL yields: the MIME type, the encoding label and the payload. */
  datatype DataUrl = DataUrl(mimeType: string, encoding: string, data: string)

  /** The text a data URL is written as. */
  function Compose(u: DataUrl): string {
    "data:" + u.mimeType + ";" + u.encoding + "," + u.data
  }
}

=== FILE: legacy.dfy ===
/** The legacy module src/index.js: free functions that each build a
    container client from their options (or the environment) and then list,
    get, save or remove blobs. */
module LegacyClient {
  import opened Results
  import opened Strings
  import opened Paths
  import opened DataUrls
  import opened Store

  /** The errors the module throws. Both configuration getters throw the
      same "No connectionString was provided" error. */
  datatype Error =
    | PathRequired
    | ContentRequired
    | UnallowedCharacter(c: char)
    | NoConnectionString
    | NotFound(path: string)
    | NothingRetrieved
    | DownloadFailed

  /** The `connectionString`, `containerName` and `metadata` options; "" and
      `None` when not given. */
  datatype Options = Options(connectionString: string, containerName: string, metadata: Option<map<string, string>>)

  /** AZURE_BLOB_CONNECTIONSTRING and AZURE_BLOB_CONTAINERNAME, read when the
      module loads; "" when unset. */
  datatype Environment = Environment(connectionString: string, containerName: string)

  datatype Config = Config(connectionString: string, containerName: string)

  /** The options `get` passes to `list` for its fallback: none at all. */
  const NoOptions := Options("", "", None)

  /** `getConnectionString`: the option, else the environment variable. */
  function GetConnectionString(options: Options, env: Environment): (r: Result<string, Error>)
    ensures r.Err? <==> options.connectionString == "" && env.connectionString == ""
    ensures r.Err? ==> r.error == NoConnectionString
    ensures r.Ok? ==> r.value == if options.connectionString != "" then options.connectionString else env.connectionString
  {
    var value := Fallback(options.connectionString, env.connectionString);
    if value == "" then Err(NoConnectionString) else Ok(value)
  }

  /** `getContainerName`: the option, else the environment variable; when
      both are missing it throws the connection-string error. */
  function GetContainerName(options: Options, env: Environment): (r: Result<string, Error>)
    ensures r.Err? <==> options.containerName == "" && env.containerName == ""
    ensures r.Err? ==> r.error == NoConnectionString
    ensures r.Ok? ==> r.value == if options.containerName != "" then options.containerName else env.containerName
  {
    var value := Fallback(options.containerName, env.containerName);
    if value == "" then Err(NoConnectionString) else Ok(value)
  }

  /** `createContainerClient`'s configuration: connection string first, then container name. */
  function ContainerConfig(options: Options, env: Environment): (r: Result<Config, Error>)
    ensures r.Err? <==> GetConnectionString(options, env).Err? || GetContainerName(options, env).Err?
    ensures r.Err? ==> r.error == NoConnectionString
    ensures r.Ok? ==> r.value == Config(GetConnectionString(options, env).value, GetContainerName(options, env).value)
  {
    match GetConnectionString(options, env)
    case Err(e) => Err(e)
    case Ok(connectionString) =>
      match GetContainerName(options, env)
      case Err(e) => Err(e)
      case Ok(containerName) => Ok(Config(connectionString, containerName))
  }

  /** The legacy `parseDataUrl`: a result only when the text after "data:"
      has exactly one comma, the part before it exactly one ';', and type,
      encoding and data are all non-empty; it never throws. */
  function ParseDataUrl(text: string): (r: Option<DataUrl>)
    ensures r.Some? ==> r.value.mimeType != "" && r.value.encoding != "" && r.value.data != ""
    ensures r.Some? ==> StartsWith(text, "data:")
  {
    if text == "" || !StartsWith(text, "data:") then None
    else
      var split := Split(text[5..], ',');
      if |split| != 2 then None
      else
        var parts := Split(split[0], ';');
        var mimeType := if |parts| == 2 then parts[0] else "";
        var encoding := if |parts| == 2 then parts[1] else "";
        if mimeType != "" && encoding != "" && split[1] != "" then Some(DataUrl(mimeType, encoding, split[1]))
        else None
  }

  /** The data URLs the legacy parser accepts, in the form it accepts them:
      non-empty parts, no ';' or ',' in type and encoding, no ',' in the data. */
  predicate Strict(u: DataUrl) {
    && u.mimeType != "" && u.encoding != "" && u.data != ""
    && ';' !in u.mimeType && ',' !in u.mimeType
    && ';' !in u.encoding && ',' !in u.encoding
    && ',' !in u.data
  }

  /** Two pieces joined by a separator the first piece lacks split back into
      those two pieces when the second lacks it too. */
  lemma SplitPair(a: string, sep: char, b: string)
    requires sep !in a && sep !in b
    ensures Split(a + [sep] + b, sep) == [a, b]
  {
    SplitAt(a, sep, b);
    SplitWithout(b, sep);
  }

  /** Whatever the legacy parser returns is strict and composes back to the text. */
  lemma ParsedShape(text: string)
    requires ParseDataUrl(text).Some?
    ensures Strict(ParseDataUrl(text).value)
    ensures text == Compose(ParseDataUrl(text).value)
  {
    var u := ParseDataUrl(text).value;
    var body := text[5..];
    TwoParts(body, ',');
    TwoParts(Split(body, ',')[0], ';');
    assert text == text[..5] + body;
    ComposedBody(u);
  }

  lemma ComposedBody(u: DataUrl)
    ensures Compose(u) == "data:" + ((u.mimeType + [';'] + u.encoding) + [','] + u.data)
  {
  }

  /** The text after "data:" of a data URL without commas but the one after
      its header splits into that header and its data. */
  lemma BodyParts(u: DataUrl)
    requires ',' !in u.mimeType && ',' !in u.encoding && ',' !in u.data
    ensures Compose(u)[5..] == (u.mimeType + [';'] + u.encoding) + [','] + u.data
    ensures Split(Compose(u)[5..], ',') == [u.mimeType + [';'] + u.encoding, u.data]
  {
    var header := u.mimeType + [';'] + u.encoding;
    ComposedBody(u);
    DropPrefix("data:", header + [','] + u.data);
    SplitPair(header, ',', u.data);
  }

  /** A strict data URL, composed, parses back to itself. */
  lemma RoundTrip(u: DataUrl)
    requires Strict(u)
    ensures ParseDataUrl(Compose(u)) == Some(u)
  {
    ComposedBody(u);
    BodyParts(u);
    SplitPair(u.mimeType, ';', u.encoding);
  }

  /** `list`'s name for a key: the text after its last '/', or the whole key. */
  function EntryName(key: string): (r: string)
    ensures r == AfterLast(key, '/')
  {
    if '/' in key then key[LastIndexOf(key, '/').value + 1..] else key
  }

  /** What `list` returns per blob (the blob's properties are not modelled). */
  datatype Entry = Entry(name: string, path: string)

  /** `list`: one entry per key starting with `path`, in key order. */
  method List(store: Container, path: string, options: Options, env: Environment) returns (r: Result<seq<Entry>, Error>)
    requires store.Valid()
    ensures path == "" ==> r == Err(PathRequired)
    ensures path != "" && ContainerConfig(options, env).Err? ==> r == Err(NoConnectionString)
    ensures r.Ok? <==> path != "" && ContainerConfig(options, env).Ok?
    ensures r.Ok? ==> var keys := store.ListFlat(path);
      && |r.value| == |keys|
      && forall i :: 0 <= i < |keys| ==> r.value[i] == Entry(AfterLast(keys[i], '/'), keys[i])
  {
    if path == "" {
      return Err(PathRequired);
    }
    var config := ContainerConfig(options, env);
    if config.Err? {
      return Err(config.error);
    }
    var keys := store.ListFlat(path);
    var entries := ListedEntries(keys);
    return Ok(entries);
  }

  /** `list`'s loop: one entry per listed key, in order. */
  method ListedEntries(keys: seq<string>) returns (entries: seq<Entry>)
    ensures |entries| == |keys|
    ensures forall i :: 0 <= i < |keys| ==> entries[i] == Entry(AfterLast(keys[i], '/'), keys[i])
  {
    ghost var expected := seq(|keys|, j requires 0 <= j < |keys| => Entry(AfterLast(keys[j], '/'), keys[j]));
    entries := [];
    var i := 0;
    while i < |keys|
      invariant 0 <= i <= |keys|
      invariant entries == expected[..i]
    {
      entries := entries + [Entry(EntryName(keys[i]), keys[i])];
      i := i + 1;
      assert entries == expected[..i];
    }
    assert expected[..|keys|] == expected;
  }

  /** A blob as the legacy `get` returns it: the raw text always, type and
      encoding when the text is a data URL the legacy parser accepts. */
  datatype Item = Item(
    name: string,
    path: string,
    extension: Option<string>,
    mimeType: Option<string>,
    encoding: Option<string>,
    data: string)

  /** A single item when exactly one blob was read, else all of them. */
  datatype Fetched = Single(item: Item) | Many(items: seq<Item>)

  /** The item the legacy `get` makes of a downloaded text. */
  function ReadItem(path: string, text: string): (r: Item)
    ensures r.path == path && r.data == text
  {
    var name := LastPiece(path);
    var extension := if '.' in name then Some(LegacyExtension(name)) else None;
    match ParseDataUrl(text)
    case None => Item(name, path, extension, None, None, text)
    case Some(u) => Item(name, path, extension, Some(u.mimeType), Some(u.encoding), text)
  }

  /** The legacy item is named after the text past the key's last '/', has
      an extension when that name has a '.', namely the text past its last
      '.', and carries the type and encoding of a data URL the legacy parser
      accepts. */
  lemma ReadItemFields(path: string, text: string)
    ensures var item := ReadItem(path, text);
      && item.name == AfterLast(path, '/')
      && (item.extension.Some? <==> '.' in item.name)
      && (item.extension.Some? ==> item.extension.value == AfterLast(item.name, '.'))
      && (item.mimeType.Some? <==> ParseDataUrl(text).Some?)
      && (ParseDataUrl(text).Some? ==>
        item.mimeType == Some(ParseDataUrl(text).value.mimeType) && item.encoding == Some(ParseDataUrl(text).value.encoding))
  {
    LastPieceIsAfterLast(path);
  }

  /** The legacy `get`'s download loop: a blob without a body makes reading
      it throw; otherwise one item per target, in order. */
  function ReadAll(targets: seq<string>, blobs: map<string, Blob>, unreadable: set<string>): (r: Result<seq<Item>, Error>)
    requires forall t :: t in targets ==> t in blobs
    ensures r.Err? <==> exists t :: t in targets && t in unreadable
    ensures r.Err? ==> r.error == DownloadFailed
    ensures r.Ok? ==> |r.value| == |targets|
    ensures r.Ok? ==> forall i :: 0 <= i < |targets| ==> r.value[i] == ReadItem(targets[i], blobs[targets[i]].content)
  {
    if targets == [] then Ok([])
    else
      var t := targets[0];
      assert targets == [t] + targets[1..];
      if t in unreadable then Err(DownloadFailed)
      else
        match ReadAll(targets[1..], blobs, unreadable)
        case Err(e) => Err(e)
        case Ok(items) => Ok([ReadItem(t, blobs[t].content)] + items)
  }

  /** The legacy `get`'s targets: the path when it is a blob, else what
      `list(path)` finds with the environment's configuration alone; an
      error when that configuration is missing or nothing is found. */
  function Targets(store: Container, path: string, env: Environment): (r: Result<seq<string>, Error>)
    reads store
    requires store.Valid()
    ensures r.Ok? ==> r.value != [] && forall t :: t in r.value ==> t in store.blobs
    ensures path in store.blobs ==> r == Ok([path])
    ensures path !in store.blobs && ContainerConfig(NoOptions, env).Err? ==> r == Err(NoConnectionString)
    ensures path !in store.blobs && ContainerConfig(NoOptions, env).Ok? ==>
      (r.Ok? <==> exists k :: k in store.blobs && StartsWith(k, path))
    ensures r.Ok? && path !in store.blobs ==> r.value == store.ListFlat(path)
    ensures r.Err? && ContainerConfig(NoOptions, env).Ok? ==> r == Err(NotFound(path))
  {
    if store.Exists(path) then Ok([path])
    else if ContainerConfig(NoOptions, env).Err? then Err(NoConnectionString)
    else
      var listing := store.ListFlat(path);
      if |listing| > 0 then
        assert listing[0] in listing;
        Ok(listing)
      else
        assert forall k :: k in store.blobs && StartsWith(k, path) ==> k in listing;
        Err(NotFound(path))
  }

  /** The legacy `get`'s return shape. */
  function Shape(items: seq<Item>): (r: Result<Fetched, Error>)
    ensures r.Err? <==> items == []
    ensures |items| == 1 ==> r == Ok(Single(items[0]))
    ensures |items| > 1 ==> r == Ok(Many(items))
  {
    if |items| <= 0 then Err(NothingRetrieved)
    else if |items| == 1 then Ok(Single(items[0]))
    else Ok(Many(items))
  }

  /** The legacy `get`: validates, reads its targets in order and returns a
      single item or the array of them; the "could not retrieve" error is
      never raised, since every target is either read or makes `get` throw. */
  method Get(store: Container, path: string, options: Options, env: Environment, unreadable: set<string>)
    returns (r: Result<Fetched, Error>)
    requires store.Valid()
    ensures path == "" ==> r == Err(PathRequired)
    ensures path != "" && ContainerConfig(options, env).Err? ==> r == Err(NoConnectionString)
    ensures path != "" && ContainerConfig(options, env).Ok? && Targets(store, path, env).Err? ==>
      r == Err(Targets(store, path, env).error)
    ensures path != "" && ContainerConfig(options, env).Ok? && Targets(store, path, env).Ok? ==>
      var read := ReadAll(Targets(store, path, env).value, store.blobs, unreadable);
      r == if read.Err? then Err(read.error) else Shape(read.value)
    ensures r != Err(NothingRetrieved)
  {
    if path == "" {
      return Err(PathRequired);
    }
    var config := ContainerConfig(options, env);
    if config.Err? {
      return Err(config.error);
    }
    var found := Targets(store, path, env);
    if found.Err? {
      return Err(found.error);
    }
    var read := ReadTargets(store, found.value, unreadable);
    if read.Err? {
      return Err(read.error);
    }
    r := Shape(read.value);
  }

  /** The legacy `get`'s download loop: reads every target in order and
      stops at the first without a body. */
  method ReadTargets(store: Container, targets: seq<string>, unreadable: set<string>) returns (r: Result<seq<Item>, Error>)
    requires forall t :: t in targets ==> t in store.blobs
    ensures r == ReadAll(targets, store.blobs, unreadable)
  {
    var items: seq<Item> := [];
    var i := 0;
    while i < |targets|
      invariant 0 <= i <= |targets|
      invariant |items| == i
      invariant forall j :: 0 <= j < i ==> targets[j] !in unreadable
      invariant forall j :: 0 <= j < i ==> items[j] == ReadItem(targets[j], store.blobs[targets[j]].content)
    {
      var t := targets[i];
      if t in unreadable {
        assert t in targets;
        return Err(DownloadFailed);
      }
      items := items + [ReadItem(t, store.Download(t))];
      i := i + 1;
    }
    ReadAllOk(targets, store.blobs, unreadable, items);
    return Ok(items);
  }

  /** Items read from every target, none of them without a body, are what `ReadAll` gives. */
  lemma ReadAllOk(targets: seq<string>, blobs: map<string, Blob>, unreadable: set<string>, items: seq<Item>)
    requires forall t :: t in targets ==> t in blobs
    requires forall j :: 0 <= j < |targets| ==> targets[j] !in unreadable
    requires |items| == |targets|
    requires forall j :: 0 <= j < |targets| ==> items[j] == ReadItem(targets[j], blobs[targets[j]].content)
    ensures ReadAll(targets, blobs, unreadable) == Ok(items)
  {
    forall t | t in targets
      ensures t !in unreadable
    {
      var j :| 0 <= j < |targets| && targets[j] == t;
    }
    var r := ReadAll(targets, blobs, unreadable);
    assert r.Ok?;
    assert r.value == items;
  }

  /** The checks the legacy `save` makes before uploading, and the metadata
      it uploads with: the data URL's type and encoding whenever the content
      parses, overwriting any given metadata, else the given metadata. */
  function PrepareSave(path: string, content: string, options: Options, env: Environment): (r: Result<Option<map<string, string>>, Error>)
    ensures r == Err(PathRequired) <==> path == ""
    ensures r == Err(ContentRequired) <==> path != "" && content == ""
    ensures r.Err? && r.error.UnallowedCharacter? <==>
      path != "" && content != "" && HasUnallowedCharacter(path)
    ensures r.Err? && r.error.UnallowedCharacter? ==> Some(r.error.c) == FirstUnallowedCharacter(path)
    ensures r == Err(NoConnectionString) <==>
      path != "" && content != "" && !HasUnallowedCharacter(path) && ContainerConfig(options, env).Err?
    ensures r.Err? ==>
      r.error == PathRequired || r.error == ContentRequired || r.error.UnallowedCharacter? || r.error == NoConnectionString
    ensures r.Ok? && ParseDataUrl(content).Some? ==>
      var u := ParseDataUrl(content).value;
      r.value == Some(map["type" := u.mimeType, "encoding" := u.encoding])
    ensures r.Ok? && ParseDataUrl(content).None? ==> r.value == options.metadata
  {
    if path == "" then Err(PathRequired)
    else if content == "" then Err(ContentRequired)
    else if FirstUnallowedCharacter(path).Some? then Err(UnallowedCharacter(FirstUnallowedCharacter(path).value))
    else
      var metadata :=
        match ParseDataUrl(content)
        case Some(u) => Some(map["type" := u.mimeType, "encoding" := u.encoding])
        case None => options.metadata;
      match ContainerConfig(options, env)
      case Err(e) => Err(e)
      case Ok(_) => Ok(metadata)
  }

  /** The legacy `save`: after its checks, overwrites the blob at `path` and
      returns `path`; every other blob is kept. */
  method Save(store: Container, path: string, content: string, options: Options, env: Environment) returns (r: Result<string, Error>)
    requires store.Valid()
    modifies store
    ensures store.Valid()
    ensures r.Err? <==> PrepareSave(path, content, options, env).Err?
    ensures r.Err? ==> r.error == PrepareSave(path, content, options, env).error && store.blobs == old(store.blobs)
    ensures r.Ok? ==> r.value == path
    ensures r.Ok? ==>
      store.blobs == old(store.blobs)[path := Blob(content, PrepareSave(path, content, options, env).value.GetOr(map[]))]
  {
    var prepared := PrepareSave(path, content, options, env);
    if prepared.Err? {
      return Err(prepared.error);
    }
    store.Upload(path, content, prepared.value.GetOr(map[]));
    return Ok(path);
  }

  /** The legacy `remove`: nothing when the listing is empty; otherwise
      every listed path, in listing order, whether or not its delete
      succeeded. The guard against an empty path never skips anything,
      since every listed key starts with the non-empty `path`. */
  method Remove(store: Container, path: string, options: Options, env: Environment, refused: set<string>)
    returns (r: Result<Option<seq<string>>, Error>)
    requires store.Valid()
    modifies store
    ensures store.Valid()
    ensures path == "" ==> r == Err(PathRequired)
    ensures path != "" && ContainerConfig(options, env).Err? ==> r == Err(NoConnectionString)
    ensures r.Err? ==> store.blobs == old(store.blobs)
    ensures path != "" && ContainerConfig(options, env).Ok? ==>
      r == Ok(if old(store.ListFlat(path)) == [] then None else Some(old(store.ListFlat(path))))
    ensures r.Ok? && r.value.Some? ==> store.blobs == old(store.blobs) - (Keys(r.value.value) - refused)
    ensures r.Ok? && r.value.None? ==> store.blobs == old(store.blobs)
  {
    if path == "" {
      return Err(PathRequired);
    }
    var config := ContainerConfig(options, env);
    if config.Err? {
      return Err(config.error);
    }
    var listing := store.ListFlat(path);
    if |listing| <= 0 {
      return Ok(None);
    }
    SortedDistinct(listing);
    NonEmptyKeepsAll(listing);
    var paths := DeleteAll(store, listing, refused);
    return Ok(Some(paths));
  }

  /** The listed paths the legacy `remove` records: the non-empty ones. */
  function NonEmpty(listing: seq<string>): (r: seq<string>)
    ensures forall k :: k in r <==> k in listing && k != ""
    ensures IsSubsequence(r, listing)
  {
    Filter(listing, k => k != "")
  }

  lemma {:induction false} NonEmptyKeepsAll(listing: seq<string>)
    requires forall k :: k in listing ==> k != ""
    ensures NonEmpty(listing) == listing
  {
    if listing != [] {
      assert listing[0] in listing;
      NonEmptyStep(listing, 0);
      assert listing[0..] == listing;
      assert forall k :: k in listing[1..] ==> k in listing;
      NonEmptyKeepsAll(listing[1..]);
      assert listing == [listing[0]] + listing[1..];
    }
  }

  lemma NonEmptyStep(listing: seq<string>, i: nat)
    requires i < |listing|
    ensures NonEmpty(listing[i..]) == (if listing[i] != "" then [listing[i]] else []) + NonEmpty(listing[i + 1..])
  {
    assert listing[i..][0] == listing[i] && listing[i..][1..] == listing[i + 1..];
  }

  /** The legacy `remove`'s loop over a listing of distinct existing keys:
      skips empty paths, records every other path and asks for its deletion. */
  method DeleteAll(store: Container, listing: seq<string>, refused: set<string>) returns (paths: seq<string>)
    requires store.Valid()
    requires forall k :: k in listing ==> k in store.blobs
    requires forall i, j :: 0 <= i < j < |listing| ==> listing[i] != listing[j]
    modifies store
    ensures store.Valid()
    ensures paths == NonEmpty(listing)
    ensures store.blobs == old(store.blobs) - (Keys(paths) - refused)
  {
    ghost var before := store.blobs;
    paths := [];
    var i := 0;
    assert listing[0..] == listing;
    while i < |listing|
      invariant 0 <= i <= |listing|
      invariant store.Valid()
      invariant paths + NonEmpty(listing[i..]) == NonEmpty(listing)
      invariant forall j :: i <= j < |listing| ==> listing[j] !in paths
      invariant store.blobs == before - (Keys(paths) - refused)
    {
      var key := listing[i];
      NonEmptyStep(listing, i);
      if key == "" {
        i := i + 1;
        continue;
      }
      var succeeded := store.DeleteIfExists(key, key in refused);
      RemovedOneMore(before, paths, key, refused);
      assert paths + [key] + NonEmpty(listing[i + 1..]) == paths + ([key] + NonEmpty(listing[i + 1..]));
      paths := paths + [key];
      i := i + 1;
    }
    assert listing[i..] == [];
    assert paths + [] == paths;
  }

  lemma RemovedOneMore(m: map<string, Blob>, paths: seq<string>, key: string, refused: set<string>)
    ensures m - (Keys(paths + [key]) - refused) ==
      if key in refused then m - (Keys(paths) - refused) else (m - (Keys(paths) - refused)) - {key}
  {
    assert Keys(paths + [key]) == Keys(paths) + {key};
  }
}

=== FILE: paths.dfy ===
/** Path rules of both clients: the reserved characters `save` refuses, and
    how a blob's name and extension are derived from its key. */
module Paths {
  import opened Results
  import opened Strings

  /** The characters a saved path may not contain, in the order both files list them. */
  const UnallowedPathCharacters: seq<char> := ['\\', ':', '*', '?', '"', '<', '>', '|']

  /** The class's check: some reserved character occurs in `path`. */
  predicate HasUnallowedCharacter(path: string)
    ensures !HasUnallowedCharacter(path) <==> forall i :: 0 <= i < |path| ==> path[i] !in UnallowedPathCharacters
  {
    exists c :: c in UnallowedPathCharacters && c in path
  }

  /** Position in `chars` of the first one that occurs in `path`. */
  function FirstContained(chars: seq<char>, path: string): (r: Option<nat>)
    ensures r.None? <==> forall i :: 0 <= i < |chars| ==> chars[i] !in path
    ensures r.Some? ==> r.value < |chars| && chars[r.value] in path
    ensures r.Some? ==> forall i :: 0 <= i < r.value ==> chars[i] !in path
  {
    if chars == [] then None
    else if chars[0] in path then Some(0)
    else
      match FirstContained(chars[1..], path)
      case None => None
      case Some(i) => Some(i + 1)
  }

  /** The legacy check walks the reserved list in order and fails on the first
      character the path contains; that character is named in the error. */
  function FirstUnallowedCharacter(path: string): (r: Option<char>)
    ensures r.None? <==> !HasUnallowedCharacter(path)
    ensures r.Some? ==> r.value in UnallowedPathCharacters && r.value in path
    ensures r.Some? ==> forall i, j :: 0 <= j < i < |UnallowedPathCharacters| && UnallowedPathCharacters[i] == r.value
                                   ==> UnallowedPathCharacters[j] !in path
  {
    match FirstContained(UnallowedPathCharacters, path)
    case None => None
    case Some(i) => Some(UnallowedPathCharacters[i])
  }

  /** `p` with every trailing '/' removed. */
  function TrimTrailingSlashes(p: string): (r: string)
    ensures r <= p
    ensures r == [] || r[|r| - 1] != '/'
    ensures forall i :: |r| <= i < |p| ==> p[i] == '/'
    decreases |p|
  {
    if p != [] && p[|p| - 1] == '/' then TrimTrailingSlashes(p[..|p| - 1]) else p
  }

  /** node's POSIX `path.basename`: trailing '/' are ignored, then the text after the last '/'. */
  function Basename(p: string): (r: string)
    ensures '/' !in r
    ensures (p == [] || p[|p| - 1] != '/') ==> r == AfterLast(p, '/')
    ensures r == AfterLast(TrimTrailingSlashes(p), '/')
    ensures |r| <= |p|
  {
    AfterLast(TrimTrailingSlashes(p), '/')
  }

  /** The legacy `get`'s `path.split('/').pop()`. */
  function LastPiece(p: string): (r: string)
    ensures '/' !in r
    ensures '/' !in p ==> r == p
  {
    SplitPiecesFree(p, '/');
    Last(Split(p, '/'))
  }

  /** The legacy `get` (split and pop) and the legacy `list` (text after
      `lastIndexOf('/')`) derive the same name. */
  lemma {:induction false} LastPieceIsAfterLast(p: string)
    ensures LastPiece(p) == AfterLast(p, '/')
    decreases |p|
  {
    match IndexOf(p, '/')
    case None =>
      assert LastPiece(p) == p;
    case Some(i) =>
      LastPieceIsAfterLast(p[i + 1..]);
      LastPieceStep(p, i);
  }

  /** The inductive step of `LastPieceIsAfterLast`: both sides skip the first separator. */
  lemma LastPieceStep(p: string, i: nat)
    requires IndexOf(p, '/') == Some(i)
    requires LastPiece(p[i + 1..]) == AfterLast(p[i + 1..], '/')
    ensures LastPiece(p) == AfterLast(p, '/')
  {
    LastPieceSkips(p, i);
    AfterLastPastSeparator(p, i);
  }

  lemma LastPieceSkips(p: string, i: nat)
    requires IndexOf(p, '/') == Some(i)
    ensures LastPiece(p) == LastPiece(p[i + 1..])
  {
    SplitStep(p, '/', i);
    LastCons(p[..i], Split(p[i + 1..], '/'));
  }

  /** Cutting `p` just after one of its separators keeps what follows the last one. */
  lemma AfterLastPastSeparator(p: string, i: nat)
    requires i < |p| && p[i] == '/'
    ensures AfterLast(p[i + 1..], '/') == AfterLast(p, '/')
  {
    var rest := p[i + 1..];
    var r := AfterLast(rest, '/');
    assert p[|p| - |r|..] == rest[|rest| - |r|..];
    assert |r| < |rest| ==> p[|p| - |r| - 1] == rest[|rest| - |r| - 1];
    AfterLastUnique(p, '/', r);
  }

  /** The class and the legacy module name a blob the same way unless its key ends in '/'. */
  lemma BasenameIsLastPiece(p: string)
    requires p == [] || p[|p| - 1] != '/'
    ensures Basename(p) == LastPiece(p)
  {
    LastPieceIsAfterLast(p);
  }

  /** node's POSIX `path.extname` for a name without '/': the text from the
      last '.' on; "" when there is no '.', when that '.' starts the name,
      or when the name is "..". */
  function Extname(name: string): (r: string)
    requires '/' !in name
    ensures r == [] || (r[0] == '.' && '.' !in r[1..] && |r| <= |name| && name[|name| - |r|..] == r)
    ensures r != "" <==> LastIndexOf(name, '.').Some? && LastIndexOf(name, '.') != Some(0) && name != ".."
    ensures r != "" ==> r == "." + AfterLast(name, '.')
  {
    match LastIndexOf(name, '.')
    case None => ""
    case Some(i) => if i == 0 || name == ".." then "" else name[i..]
  }

  /** The class's `extname(name).replace(".", "")`: the text after the last
      '.', except for a name whose only dot position that counts is its first
      character, which has no extension. */
  function ClassExtension(name: string): (r: string)
    requires '/' !in name && '.' in name
    ensures r == if LastIndexOf(name, '.') == Some(0) then "" else AfterLast(name, '.')
  {
    var e := Extname(name);
    match IndexOf(e, '.')
    case None => e
    case Some(i) => e[..i] + e[i + 1..]
  }

  /** The legacy `name.substring(name.lastIndexOf('.') + 1)`. */
  function LegacyExtension(name: string): (r: string)
    requires '.' in name
    ensures r == AfterLast(name, '.')
  {
    name[LastIndexOf(name, '.').value + 1..]
  }

  /** The two extension rules differ only on names whose last '.' is their first character. */
  lemma ExtensionsAgree(name: string)
    requires '/' !in name && '.' in name
    ensures ClassExtension(name) == LegacyExtension(name) <==> LastIndexOf(name, '.') != Some(0) || name == "."
  {
  }
}

=== FILE: results.dfy ===
/** Optional values and results with an error, as the two clients use them:
    `undefined` becomes `None`, a thrown `Error` becomes `Err`. */
module Results {

  datatype Option<+T> = None | Some(value: T) {
    function GetOr(default: T): T {
      match this
      case Some(v) => v
      case None => default
    }
  }

  datatype Result<+T, +E> = Ok(value: T) | Err(error: E)
}

=== FILE: store.dfy ===
/** An in-memory stand-in for the blob container the clients talk to: a map
    from key to stored blob, listed in lexicographic key order. It offers
    the five calls the clients make: exists, flat listing by prefix,
    download, upload and delete-if-exists. */
module Store {
  import opened Strings

  /** A stored blob: its (already decoded) text and the metadata of its last upload. */
  datatype Blob = Blob(content: string, metadata: map<string, string>)

  /** Lexicographic order on keys, character by character. */
  predicate Less(a: string, b: string)
    decreases |a|
  {
    if a == [] then b != []
    else if b == [] then false
    else if a[0] != b[0] then a[0] < b[0]
    else Less(a[1..], b[1..])
  }

  lemma {:induction false} LessIrreflexive(a: string)
    ensures !Less(a, a)
    decreases |a|
  {
    if a != [] {
      LessIrreflexive(a[1..]);
    }
  }

  lemma {:induction false} LessTransitive(a: string, b: string, c: string)
    requires Less(a, b) && Less(b, c)
    ensures Less(a, c)
    decreases |a|
  {
    if a != [] && b != [] && c != [] && a[0] == b[0] && b[0] == c[0] {
      LessTransitive(a[1..], b[1..], c[1..]);
    }
  }

  lemma {:induction false} LessTotal(a: string, b: string)
    requires a != b
    ensures Less(a, b) || Less(b, a)
    decreases |a|
  {
    if a != [] && b != [] && a[0] == b[0] {
      assert a == [a[0]] + a[1..] && b == [b[0]] + b[1..];
      LessTotal(a[1..], b[1..]);
    }
  }

  /** Strictly increasing, hence free of duplicates. */
  ghost predicate Sorted(s: seq<string>) {
    forall i, j :: 0 <= i < j < |s| ==> Less(s[i], s[j])
  }

  lemma SortedDistinct(s: seq<string>)
    requires Sorted(s)
    ensures forall i, j :: 0 <= i < j < |s| ==> s[i] != s[j]
  {
    forall i, j | 0 <= i < j < |s|
      ensures s[i] != s[j]
    {
      LessIrreflexive(s[i]);
    }
  }

  lemma {:induction false} SubsequenceSorted(a: seq<string>, b: seq<string>)
    requires IsSubsequence(a, b) && Sorted(b)
    ensures Sorted(a)
    decreases |b|
  {
    if a == [] {
    } else if a[0] == b[0] && IsSubsequence(a[1..], b[1..]) {
      SubsequenceSorted(a[1..], b[1..]);
      SubsequenceMembers(a[1..], b[1..]);
      forall j | 1 <= j < |a|
        ensures Less(a[0], a[j])
      {
        assert a[j] == a[1..][j - 1];
        assert a[j] in b[1..];
        var k :| 0 <= k < |b| - 1 && b[1..][k] == a[j];
        assert b[k + 1] == a[j];
      }
    } else {
      SubsequenceSorted(a, b[1..]);
    }
  }

  /** `s` with `k` added at its place in the order. */
  function Insert(s: seq<string>, k: string): seq<string>
  {
    if s == [] then [k]
    else if s[0] == k then s
    else if Less(k, s[0]) then [k] + s
    else [s[0]] + Insert(s[1..], k)
  }

  lemma {:induction false} InsertSorted(s: seq<string>, k: string)
    requires Sorted(s)
    ensures Sorted(Insert(s, k))
    ensures forall x :: x in Insert(s, k) <==> x in s || x == k
  {
    if s == [] {
    } else if s[0] == k {
    } else if Less(k, s[0]) {
      var r := [k] + s;
      forall j | 1 <= j < |r|
        ensures Less(k, r[j])
      {
        if j > 1 {
          LessTransitive(k, s[0], s[j - 1]);
        }
      }
    } else {
      LessTotal(k, s[0]);
      InsertSorted(s[1..], k);
      var tail := Insert(s[1..], k);
      var r := [s[0]] + tail;
      assert s == [s[0]] + s[1..];
      forall j | 1 <= j < |r|
        ensures Less(s[0], r[j])
      {
        assert r[j] == tail[j - 1];
        assert r[j] in s[1..] || r[j] == k;
      }
    }
  }

  /** The elements of a sequence of keys, as a set. */
  function Keys(s: seq<string>): set<string> {
    set k | k in s
  }

  /** The keys among `names` that start with `prefix`, in the order of `names`. */
  function Listing(names: seq<string>, prefix: string): (r: seq<string>)
    ensures forall k :: k in r <==> k in names && StartsWith(k, prefix)
    ensures IsSubsequence(r, names)
    ensures (forall k :: k in names ==> !StartsWith(k, prefix)) ==> r == []
  {
    var keep := k => StartsWith(k, prefix);
    if forall k :: k in names ==> !keep(k) then
      FilterNone(names, keep);
      Filter(names, keep)
    else
      Filter(names, keep)
  }

  class Container {
    var blobs: map<string, Blob>
    /** The keys of `blobs` in listing order. */
    var names: seq<string>

    ghost predicate Valid()
      reads this
    {
      Sorted(names) && forall k :: k in blobs <==> k in names
    }

    constructor ()
      ensures Valid() && blobs == map[]
    {
      blobs := map[];
      names := [];
    }

    /** The service's existence probe. */
    function Exists(key: string): (r: bool)
      reads this
      requires Valid()
      ensures r <==> key in blobs
      ensures r ==> key in ListFlat(key)
    {
      key in blobs
    }

    /** The service's flat listing: every key that starts with `prefix`, each once, in key order. */
    function ListFlat(prefix: string): (r: seq<string>)
      reads this
      requires Valid()
      ensures Sorted(r)
      ensures forall k :: k in r <==> k in blobs && StartsWith(k, prefix)
      ensures (forall k :: k in blobs ==> !StartsWith(k, prefix)) ==> r == []
    {
      var r := Listing(names, prefix);
      SubsequenceSorted(r, names);
      r
    }

    /** The text of a stored blob. */
    function Download(key: string): (r: string)
      reads this
      requires key in blobs
      ensures r == blobs[key].content
    {
      blobs[key].content
    }

    /** A block upload: overwrites the blob at `key`, content and metadata. */
    method Upload(key: string, content: string, metadata: map<string, string>)
      requires Valid()
      modifies this
      ensures Valid()
      ensures blobs == old(blobs)[key := Blob(content, metadata)]
    {
      InsertSorted(names, key);
      blobs := blobs[key := Blob(content, metadata)];
      names := Insert(names, key);
    }

    /** Delete-if-exists; `refused` stands for a delete the service does not carry out. */
    method DeleteIfExists(key: string, refused: bool) returns (succeeded: bool)
      requires Valid()
      modifies this
      ensures Valid()
      ensures succeeded <==> key in old(blobs) && !refused
      ensures blobs == if succeeded then old(blobs) - {key} else old(blobs)
    {
      succeeded := key in blobs && !refused;
      if succeeded {
        var rest := Filter(names, k => k != key);
        SubsequenceSorted(rest, names);
        blobs := blobs - {key};
        names := rest;
      }
    }
  }
}

=== FILE: strings.dfy ===
/** The handful of JavaScript string and array operations the clients rely on,
    stated over `seq<char>`. */
module Strings {
  import opened Results

  /** JavaScript's `s.startsWith(p)`. */
  predicate StartsWith(s: string, p: string) {
    p <= s
  }

  /** JavaScript's `a || b` on strings: the empty string is falsy. */
  function Fallback(value: string, fallback: string): (r: string)
    ensures r == "" <==> value == "" && fallback == ""
    ensures value != "" ==> r == value
    ensures value == "" ==> r == fallback
  {
    if value != "" then value else fallback
  }

  /** `s.indexOf(c)`: the first position of `c`, or `None` for -1. */
  function IndexOf(s: string, c: char): (r: Option<nat>)
    ensures r.None? <==> c !in s
    ensures r.Some? ==> r.value < |s| && s[r.value] == c && c !in s[..r.value]
  {
    if s == [] then None
    else if s[0] == c then Some(0)
    else
      match IndexOf(s[1..], c)
      case None => None
      case Some(i) =>
        assert s[..i + 1] == [s[0]] + s[1..][..i];
        Some(i + 1)
  }

  /** `s.lastIndexOf(c)`: the last position of `c`, or `None` for -1. */
  function LastIndexOf(s: string, c: char): (r: Option<nat>)
    ensures r.None? <==> c !in s
    ensures r.Some? ==> r.value < |s| && s[r.value] == c && c !in s[r.value + 1..]
  {
    if s == [] then None
    else if s[|s| - 1] == c then Some(|s| - 1)
    else
      var r := LastIndexOf(s[..|s| - 1], c);
      assert s == s[..|s| - 1] + [s[|s| - 1]];
      r
  }

  /** The text after the last `c`, or all of `s` when it has none:
      the longest suffix of `s` that does not contain `c`. */
  function AfterLast(s: string, c: char): (r: string)
    ensures c !in r
    ensures |r| <= |s| && s[|s| - |r|..] == r
    ensures |r| < |s| ==> s[|s| - |r| - 1] == c
  {
    match LastIndexOf(s, c)
    case None => s
    case Some(i) => s[i + 1..]
  }

  /** A suffix of `s` free of `c` and preceded by `c` (or by nothing) is the one `AfterLast` gives. */
  lemma AfterLastUnique(s: string, c: char, r: string)
    requires c !in r
    requires |r| <= |s| && s[|s| - |r|..] == r
    requires |r| < |s| ==> s[|s| - |r| - 1] == c
    ensures r == AfterLast(s, c)
  {
  }

  /** JavaScript's `s.split(sep)` for a one-character separator: the pieces
      between separators, always at least one. */
  function Split(s: string, sep: char): (parts: seq<string>)
    ensures |parts| >= 1
    ensures |parts| == 1 <==> sep !in s
    decreases |s|
  {
    match IndexOf(s, sep)
    case None => [s]
    case Some(i) =>
      var rest := Split(s[i + 1..], sep);
      [s[..i]] + rest
  }

  /** No piece of a split contains the separator. */
  lemma {:induction false} SplitPiecesFree(s: string, sep: char)
    ensures forall i :: 0 <= i < |Split(s, sep)| ==> sep !in Split(s, sep)[i]
    decreases |s|
  {
    match IndexOf(s, sep)
    case None =>
    case Some(i) =>
      SplitPiecesFree(s[i + 1..], sep);
      SplitPiecesFreeStep(s, sep, i);
  }

  /** The inductive step of `SplitPiecesFree`: the text before the first
      separator, then the pieces of the rest. */
  lemma SplitPiecesFreeStep(s: string, sep: char, i: nat)
    requires IndexOf(s, sep) == Some(i)
    requires PiecesFree(Split(s[i + 1..], sep), sep)
    ensures PiecesFree(Split(s, sep), sep)
  {
    SplitStep(s, sep, i);
    PiecesFreeCons(s[..i], Split(s[i + 1..], sep), sep);
  }

  /** No piece contains the separator. */
  predicate PiecesFree(parts: seq<string>, sep: char) {
    forall j :: 0 <= j < |parts| ==> sep !in parts[j]
  }

  lemma PiecesFreeCons(head: string, rest: seq<string>, sep: char)
    requires sep !in head
    requires PiecesFree(rest, sep)
    ensures PiecesFree([head] + rest, sep)
  {
    forall j | 0 <= j < |[head] + rest|
      ensures sep !in ([head] + rest)[j]
    {
      if j > 0 {
        assert ([head] + rest)[j] == rest[j - 1];
      }
    }
  }

  /** Joining the pieces of a split with the same separator gives the text back. */
  lemma {:induction false} SplitJoin(s: string, sep: char)
    ensures Join(Split(s, sep), sep) == s
    decreases |s|
  {
    match IndexOf(s, sep)
    case None =>
    case Some(i) =>
      SplitJoin(s[i + 1..], sep);
      SplitJoinStep(s, sep, i);
  }

  /** The inductive step of `SplitJoin`: the text before the first separator,
      the separator, then the rest joined back. */
  lemma SplitJoinStep(s: string, sep: char, i: nat)
    requires IndexOf(s, sep) == Some(i)
    requires Join(Split(s[i + 1..], sep), sep) == s[i + 1..]
    ensures Join(Split(s, sep), sep) == s
  {
    var head, rest := s[..i], s[i + 1..];
    var parts := Split(rest, sep);
    SplitStep(s, sep, i);
    JoinCons(head, parts, sep);
    Around(s, i);
  }

  lemma JoinCons(first: string, rest: seq<string>, sep: char)
    requires rest != []
    ensures Join([first] + rest, sep) == first + [sep] + Join(rest, sep)
  {
    assert ([first] + rest)[1..] == rest;
  }

  /** One step of `Split`: the text before the first separator, then the split of the rest. */
  lemma SplitStep(s: string, sep: char, i: nat)
    requires IndexOf(s, sep) == Some(i)
    ensures Split(s, sep) == [s[..i]] + Split(s[i + 1..], sep)
  {
  }

  /** `parts.join(sep)`, the inverse of `Split`. */
  function Join(parts: seq<string>, sep: char): string
  {
    if parts == [] then ""
    else if |parts| == 1 then parts[0]
    else parts[0] + [sep] + Join(parts[1..], sep)
  }

  /** The last element of a non-empty sequence (JavaScript's `pop()` result). */
  function Last<T>(s: seq<T>): T
    requires s != []
  {
    s[|s| - 1]
  }

  lemma LastCons<T>(x: T, t: seq<T>)
    requires t != []
    ensures Last([x] + t) == Last(t)
  {
  }

  lemma SplitWithout(s: string, sep: char)
    requires sep !in s
    ensures Split(s, sep) == [s]
  {
  }

  lemma IndexOfAt(a: string, c: char, b: string)
    requires c !in a
    ensures IndexOf(a + [c] + b, c) == Some(|a|)
  {
    var s := a + [c] + b;
    assert s[..|a|] == a;
    assert s[|a|] == c;
  }

  lemma PrefixOfConcat<T>(a: seq<T>, b: seq<T>)
    ensures a <= a + b
  {
    assert (a + b)[..|a|] == a;
  }

  lemma PrefixTransitive<T>(a: seq<T>, b: seq<T>, c: seq<T>)
    requires a <= b && b <= c
    ensures a <= c
  {
    assert c[..|a|] == b[..|a|];
  }

  lemma PrefixUnderConcat<T>(p: seq<T>, a: seq<T>, b: seq<T>)
    requires a <= b
    ensures p + a <= p + b
  {
    assert (p + b)[..|p + a|] == p + b[..|a|];
  }

  lemma Associate<T>(a: seq<T>, b: seq<T>, c: seq<T>)
    ensures a + (b + c) == a + b + c
  {
  }

  /** A sequence is what precedes position `i`, the element there, and what follows. */
  lemma Around<T>(s: seq<T>, i: nat)
    requires i < |s|
    ensures s == s[..i] + [s[i]] + s[i + 1..]
  {
  }

  /** What follows a prefix. */
  lemma DropPrefix<T>(a: seq<T>, b: seq<T>)
    ensures (a + b)[|a|..] == b
  {
  }

  /** The middle and the end of a three-part concatenation, recovered by slicing. */
  lemma Slices<T>(a: seq<T>, b: seq<T>, c: seq<T>)
    ensures (a + b + c)[|a|..|a| + |b|] == b
    ensures (a + b + c)[|a| + |b|..] == c
  {
  }

  /** A prefix has no element its whole does not have. */
  lemma PrefixFree<T>(p: seq<T>, s: seq<T>, c: T)
    requires p <= s && c !in s
    ensures c !in p
  {
    assert p == s[..|p|];
  }

  /** Splitting at a first separator peels off the text before it. */
  lemma SplitAt(a: string, sep: char, b: string)
    requires sep !in a
    ensures Split(a + [sep] + b, sep) == [a] + Split(b, sep)
  {
    var s := a + [sep] + b;
    IndexOfAt(a, sep, b);
    assert s[..|a|] == a;
    assert s[|a| + 1..] == b;
  }

  /** A join of two or more pieces begins with the first two and the
      separator between them, and goes on only with another separator. */
  lemma JoinHead(parts: seq<string>, sep: char)
    requires |parts| >= 2
    ensures Join(parts, sep) ==
      parts[0] + [sep] + parts[1] + (if |parts| == 2 then [] else [sep] + Join(parts[2..], sep))
  {
    var tail := parts[1..];
    assert Join(parts, sep) == parts[0] + [sep] + Join(tail, sep);
    if |parts| == 2 {
      assert Join(tail, sep) == parts[1];
    } else {
      assert tail[0] == parts[1] && tail[1..] == parts[2..];
      assert Join(tail, sep) == parts[1] + [sep] + Join(parts[2..], sep);
    }
  }

  /** A text that splits into exactly two pieces is those pieces around one separator. */
  lemma TwoParts(s: string, sep: char)
    requires |Split(s, sep)| == 2
    ensures var parts := Split(s, sep);
      s == parts[0] + [sep] + parts[1] && sep !in parts[0] && sep !in parts[1]
  {
    SplitPiecesFree(s, sep);
    SplitJoin(s, sep);
    JoinHead(Split(s, sep), sep);
  }

  /** `a` is obtained from `b` by dropping elements, keeping the order. */
  predicate IsSubsequence<T(==)>(a: seq<T>, b: seq<T>)
    decreases |b|
  {
    a == [] ||
    (b != [] && ((a[0] == b[0] && IsSubsequence(a[1..], b[1..])) || IsSubsequence(a, b[1..])))
  }

  lemma SubsequenceCons<T>(x: T, a: seq<T>, b: seq<T>)
    requires IsSubsequence(a, b)
    ensures IsSubsequence([x] + a, [x] + b)
  {
    assert ([x] + a)[1..] == a;
    assert ([x] + b)[1..] == b;
  }

  lemma SubsequenceSkip<T>(x: T, a: seq<T>, b: seq<T>)
    requires IsSubsequence(a, b)
    ensures IsSubsequence(a, [x] + b)
  {
    assert ([x] + b)[1..] == b;
  }

  lemma {:induction false} SubsequenceMembers<T>(a: seq<T>, b: seq<T>)
    requires IsSubsequence(a, b)
    ensures forall x :: x in a ==> x in b
    decreases |b|
  {
    if a == [] {
    } else if a[0] == b[0] && IsSubsequence(a[1..], b[1..]) {
      SubsequenceMembers(a[1..], b[1..]);
      assert a == [a[0]] + a[1..];
    } else {
      SubsequenceMembers(a, b[1..]);
    }
  }

  /** Nothing is kept from a sequence none of whose elements `keep` accepts. */
  lemma {:induction false} FilterNone<T(!new)>(s: seq<T>, keep: T -> bool)
    requires forall x :: x in s ==> !keep(x)
    ensures Filter(s, keep) == []
  {
    if s != [] {
      FilterNone(s[1..], keep);
    }
  }

  /** The elements of `s` that `keep` accepts, in their order in `s`. */
  function Filter<T(!new)>(s: seq<T>, keep: T -> bool): (r: seq<T>)
    ensures forall x :: x in r <==> x in s && keep(x)
    ensures IsSubsequence(r, s)
  {
    if s == [] then []
    else
      var rest := Filter(s[1..], keep);
      assert s == [s[0]] + s[1..];
      if keep(s[0]) then
        SubsequenceCons(s[0], rest, s[1..]);
        [s[0]] + rest
      else
        SubsequenceSkip(s[0], rest, s[1..]);
        rest
  }
}
